=== FILE: README.md ===
# PCP materials-list engine in Dafny

This project models the engine inside the PCP web application (`app.py`). The engine builds a list of well-intervention materials by walking an operator through up to seven flows: A, B, C, D, E, F and H. Each flow reads a materials catalog. The operator picks key values (DIÁMETRO, TIPO, steel grades, coupling types, DIÁMETRO CSG or material names) through pages of cascading option lists and enters quantities. The flow then:

- keeps the catalog rows that match the choices, where in flows A, B, C, E and H a row tagged `TODOS` matches every key (flow D admits no wildcard row unless TODOS itself is selected, and flow F only the exact token `TODOS`);
- fills in the entered quantity on rows whose quantity is missing;
- renames and projects the report columns;
- appends the resulting sheet, under its flow label, to a result ledger.

The export concatenates the ledger's sheets, tagging each row with its flow.

The catalog is an abstract table. A `Row` maps column names to trimmed strings; an absent cell stands for NaN, which never matches. A row also carries a quantity of type `Option<int>`, where `None` means missing.

Modules:

- `Common`: rows, tables, the `TODOS` wildcard and its case-insensitive test, and the mask filter `Keep` with its order-preserving subsequence lemmas.
- `Ordering`: string order and `sorted(unique(...))`.
- `Filters`: the row predicate of each flow, the mask-accumulating loops, and the methods that record a page's choices.
- `Cascade`: the option list offered at each step.
- `Backfill`: the in-place quantity fill on an array of rows, specified by `FillAll`.
- `Projection`: `renombrar_columnas`.
- `Steps`: the SI/NO decision pages, the selection pages, the empty-list check of the quantity pages, the redirect after each finalize step, and the comma-joined query-string lists.
- `Ledger`: what each flow appends, the `Run` class that holds the ledger, and the export concatenation.

Where the code and the intended A→B→…→H walk disagree, the model follows the code. Flows A, E and F redirect to flow H once they are finalized (`app.py:280`, `734`, `830`), so finishing A or E skips the flows in between.

## Model

| member | source | states |
|---|---|---|
| Common.WildcardSpellings | app.py:66 | The wildcard test `x.upper() == "TODOS"` accepts TODOS in any letter case. It rejects near misses such as "TODO" and a trailing space. |
| Common.WildcardCaseInsensitive | app.py:66 | The case-insensitive wildcard test accepts exactly the five-letter strings that spell TODOS with each letter in either case. |
| Ordering.SortedDistinct | app.py:97 | `sorted(unique(xs))` is strictly ascending and holds exactly the values of `xs`. |
| Cascade.ValuesMembership | app.py:97 | The comprehension over `dropna().unique()` yields `v` iff some row carries `v` in the column and `v` is not excluded. NaN cells never contribute. |
| Cascade.Distinct | app.py:97 | An option list is strictly sorted (hence distinct). It holds exactly the non-excluded values that some row carries. Called on the whole catalog, this is also each primary-key list: app.py:66, 304 and 607 hide the wildcard in any letter case, flow C's list (app.py:369) hides only the exact token TODOS, as app.py:396 and 434 do, and flow D (app.py:540) hides nothing. |
| Cascade.OptionsAShape | app.py:96-140 | A missing grade column gives exactly ["Seleccionar"]. Otherwise the list is ["TODOS"] iff the rows that survive the earlier choices carry only wildcard spellings or NaN. In every other case it is the sorted list of exactly the non-wildcard values those rows carry. |
| Cascade.OfferedOptionIsInhabited | app.py:133-148 | Recording any offered value other than TODOS leaves at least one catalog row that passes that DIÁMETRO's filter. |
| Cascade.FallbackPolicies | app.py:263-273 | A stored TIPO of "TODOS" filters exactly like no TIPO filter. A grade stored as the fallback "TODOS" admits only rows whose grade is literally TODOS. |
| Cascade.OptionsTipoCShape | app.py:395-399 | Flow C's TIPO list is ["TODOS"] iff every TIPO of the rows keyed exactly on the DIÁMETRO is the exact token TODOS or NaN. Otherwise it is strictly sorted and excludes "TODOS". A value other than TODOS is offered iff some row keyed exactly on the DIÁMETRO carries it; wildcard-key rows do not contribute. |
| Cascade.FlowCOffersLowercaseTodos | app.py:396 | Flow C hides only the exact token: a row keyed on the DIÁMETRO with TIPO "todos" gets "todos" offered as an option, though it upper-cases to TODOS. |
| Cascade.CsgOptionsShape | app.py:425-434 | The DIÁMETRO CSG list is strictly sorted. It holds v iff v is not TODOS and some row carries v as its DIÁMETRO CSG, has a chosen DIÁMETRO or TODOS, and has a TIPO ticked for some key (or TODOS, once a key is recorded). |
| Cascade.ChosenCsgC | app.py:434-443 | The DIÁMETRO CSG used is TODOS when no candidate row offers a CSG value (the step is skipped) or when the answer is missing or empty. When options exist and the answer is non-empty, it is exactly the answer. |
| Cascade.OptionsEShape | app.py:632-642 | Flow E's TIPO list is ["TODOS"] iff the exact-key rows carry only wildcard spellings or NaN; otherwise it is the sorted list of exactly their other TIPO values. Each of the three grade lists is ["Seleccionar"] when its column is absent. Otherwise it is the sorted list of exactly the non-wildcard values of the exact-key rows, with no fallback: it is empty iff those rows carry only wildcards or NaN. |
| Filters.Decode | app.py:266-273 | A stored choice is unconstrained iff it is the sentinel of its dimension: "TODOS" for TIPO, "Seleccionar" for a grade. Any other string, including a grade "TODOS", is a constraint on exactly that string. |
| Filters.RecordChoices | app.py:143-148 | After a cascade POST, every chosen DIÁMETRO has an entry whose dimension holds the decoded answer, or the default when the field is missing. The entry is created when absent, its other dimensions are untouched, and keys that were not chosen keep their entries. |
| Filters.SelectA | app.py:263-276 | The loop that ORs one mask per chosen DIÁMETRO and selects with it returns exactly `FlowARows`. |
| Filters.FlowAMembership | app.py:263-276 | A row is selected iff some chosen key k has DIÁMETRO in {k, TODOS}, and every constrained dimension of k's filter holds a value in {choice, TODOS}. |
| Filters.FlowAIsSubSeq | app.py:276 | The flow A result is an order-preserving subsequence of the catalog. |
| Filters.UnconstrainedWidensA | app.py:266-273 | Leaving one dimension of one key unconstrained selects a super-sequence of what any constraint on it selects. This includes the explicit {TODOS}. |
| Filters.ExplicitWildcardAdmitsOnlyWildcardRows | app.py:268-269 | A dimension constrained to {TODOS} admits only rows whose value in that column is TODOS. |
| Filters.UnconstrainedStrictlyWider | app.py:266-269 | The widening is strict: a row with a concrete TIPO passes the unconstrained filter and fails the {TODOS} one. |
| Filters.FlowBMembership | app.py:331 | Flow B keeps a row iff its DIÁMETRO is one of the selected values or upper-cases to TODOS. |
| Filters.SelectC | app.py:475-486 | The nested loops over keys and their TIPO values return exactly the rows that match some (key, tipo) combination: DIÁMETRO in {key, TODOS}, TIPO in {tipo, TODOS}, DIÁMETRO CSG in {csg, TODOS}. Catalog order is kept. |
| Filters.RecordTiposC | app.py:401-406 | Every chosen DIÁMETRO maps to the TIPO values ticked for it, or to ["TODOS"] when none were ticked. No other key is recorded. |
| Filters.UnionTiposC | app.py:425-431 | With no recorded key the union is empty. Otherwise a value is in it iff it is TODOS or was ticked for some key. |
| Filters.DiamFilterC | app.py:432 | The DIÁMETRO filter of the CSG step holds exactly the chosen keys plus TODOS. |
| Filters.KeyColumnD | app.py:533-538 | Flow D keys on DIÁMETRO whenever it exists, else on DIÁMETRO CSG when that exists. It fails iff neither exists. |
| Filters.FlowDMembership | app.py:571 | Flow D keeps a row iff its key cell is one of the selected values. Without TODOS in the selection, no TODOS row is kept. |
| Filters.GradeList | app.py:656-672 | A single-select grade answer becomes [answer, "TODOS"]. A missing, empty or "Seleccionar" answer becomes the empty list, meaning "do not filter". |
| Filters.FilterOfAnswer | app.py:648-677 | A ticked TIPO list gains TODOS and an empty one stays empty. Each of the three grade filters is [answer, "TODOS"] for a real answer, and empty (no filter) for a missing, empty or "Seleccionar" answer. |
| Filters.RecordFiltersE | app.py:645-678 | Every chosen DIÁMETRO, and no other key, gets the filter built from its answers. |
| Filters.CollectE | app.py:705-719 | The loop that concatenates one subset per chosen DIÁMETRO returns exactly `FlowERows`. |
| Filters.FlowEMembership | app.py:705-719 | A row appears in flow E's result iff it is a catalog row that passes the filters of some chosen DIÁMETRO. |
| Filters.WildcardRowRepeatsInE | app.py:705-719 | A TODOS row that passes the filters of two chosen keys appears twice. |
| Filters.RecordF | app.py:785-792 | The recorded list always contains TODOS and holds exactly the selection plus TODOS. An empty DIÁMETRO CSG answer becomes TODOS. |
| Filters.DisplayF | app.py:809 | Quantities are asked for exactly the recorded keys that do not upper-case to TODOS. |
| Filters.FlowFMembership | app.py:823 | Flow F keeps a row iff its DIÁMETRO was selected or is exactly "TODOS". The recorded DIÁMETRO CSG plays no part. |
| Filters.FlowFDropsLowercaseTodos | app.py:823 | Flow F matches the wildcard case-sensitively: a row whose DIÁMETRO is "todos" is dropped, though the test at app.py:809 treats it as the wildcard. |
| Filters.AssignedHMembership | app.py:910 | Flow H keeps a row iff its material is selected and its quantity is present and positive. |
| Backfill.AssignMasked | app.py:333-334 | One masked assignment, in place, turns the array into `FillStep` of its old contents. |
| Backfill.BackfillInPlace | app.py:332-334 | The loop of masked assignments turns the array into `FillAll` of its old contents with the whole quantities dict. |
| Backfill.FillRowKeepsCells | app.py:334 | Backfill writes only the quantity column; every other cell of every row is unchanged. |
| Backfill.FillRowNoOverwrite | app.py:333 | A row whose quantity is not empty under the policy is never changed. |
| Backfill.FillRowUntargeted | app.py:333 | A row that no entered quantity is meant for is never changed. |
| Backfill.FillRowFirstWins | app.py:468-474 | Under missing-only filling, a row keeps its own quantity if it has one. Otherwise it ends with the first parsed quantity, in dict order, among those meant for it (`FirstFill`). |
| Backfill.FillIdempotent | app.py:332-334 | Applying the same quantities twice gives the same table as applying them once. |
| Backfill.FillRowUniform | app.py:906-908 | When every item meant for a row carries the same quantity q, an empty row with some item meant for it becomes q; every other row is unchanged. |
| Backfill.ExactOrders | app.py:321-324 | The quantities dict has one item per selected key. An item is meant for a row iff the row's key cell is one of the selected keys. Every item meant for a row carries the value entered for that row's key. |
| Backfill.ExactKeyBackfill | app.py:332-334 | A row changes only when its key equals an entered key exactly and its quantity is missing; it then receives that key's quantity. Every other row keeps its quantity, wildcard rows included. Cells never change. |
| Backfill.CombosOf | app.py:462-466 | Flow C's items for one key, one per recorded TIPO, are meant for exactly the rows that one of those (key, tipo) combinations matches. Each carries the quantity entered for its own combination. |
| Backfill.OrdersCTargets | app.py:462-474 | Every item of flow C's dict carries the quantity entered for its own combination. An item is meant for a row iff some recorded (key, tipo) combination of a chosen key matches the row. |
| Backfill.OrdersH | app.py:901-904 | Flow H's dict has one item per selected material. An item is meant for a row iff the row's material was selected. Every item meant for a row carries the quantity entered for that material. |
| Backfill.MaterialBackfill | app.py:906-908 | A row of a selected material whose quantity is missing or not positive receives the quantity entered for its material. Every other row keeps its quantity. |
| Backfill.FirstComboWins | app.py:468-474 | A row with no quantity that several (key, tipo) combinations match ends with the first parsed quantity among them, in dict order. |
| Backfill.ScenarioTwoRows | app.py:332-334 | With two rows of key "A", one empty and one holding 5, entering 3 fills only the empty row. |
| Projection.Origin | app.py:16-23 | Each report column is the rename of its origin header. Besides that header, only the column's own name renames to it. |
| Projection.ProjectedColumns | app.py:24-25 | The kept columns are a subsequence of the canonical order and are exactly the canonical columns present after renaming. |
| Projection.ProjectRowContents | app.py:15-26 | For a catalog header h renamed to a report column c other than the quantity, the projected row holds c with h's value. When both the numbered header and c exist, the numbered header's value wins. |
| Projection.ProjectRowShape | app.py:15-26 | A projected row holds only report columns other than the quantity, each present after renaming. Its quantity is the row's own when the catalog has a quantity column, and missing otherwise. |
| Projection.PresentByOrigin | app.py:16-25 | A report column is present iff its original header exists, or the column exists under its own name. |
| Steps.DecideOutcomes | app.py:49-55 | On each decision page (also at 289-295, 353-360, 507-513, 592-598, 752-759 and 847-853) the answer is rejected iff it is neither SI nor NO. SI opens the flow's selection page. NO opens the question of the next flow (A→B, …, E→F, F→H, as there is no flow G), and leads to the results exactly after flow H. |
| Steps.AfterFinalizeForward | app.py:280 | Every finalize step redirects forward, and only flow H's redirects to the results. |
| Steps.JoinRoundTrip | app.py:73-84 | Splitting the comma-join gives back the selected list when no value contains a comma and the list is not [""]. The empty string decodes to []. |
| Steps.CommaValueIsSplit | app.py:880-888 | A selected value that contains a comma does not survive the comma-joined query string: ["a,b"] reads back as ["a", "b"]. |
| Steps.SingleEmptyValueIsLost | app.py:73-84 | The single empty value [""] joins to "" and reads back as []. |
| Steps.SelectionRejects | app.py:71-72 | A selection page rejects exactly the empty list, with its own message (also at 309-310, 375-376, 543-544, 612-613 and 878-879). Flow F's page accepts any list. |
| Steps.SelectionRoundTrip | app.py:73-75 | An accepted selection, with no value containing a comma and not [""], reaches the next page intact. |
| Steps.QuantityPageAfterSelection | app.py:735-737 | The quantity pages answer 400 for an empty list, with the flow's message (also at 831-833 and 918-920). After an accepted selection, flows E and H show the form. Flow F answers 400 iff every selected DIÁMETRO is a spelling of TODOS, the empty selection included. |
| Ledger.LoadHBackfill | app.py:893-908 | On a general catalog without a quantity column, a row of a selected material ends with the quantity entered for it, and every other row with 0. Cells are unchanged. |
| Ledger.AssignedRowsHShape | app.py:910-914 | Every row flow H appends is of a selected material with a positive quantity, and the appended sheet carries the quantity column. |
| Ledger.BackfillAndProject | app.py:332-335 | Copying the rows into an array, backfilling in place and projecting gives `Project` of `FillAll` of the rows. |
| Ledger.Run.constructor | app.py:12 | A new run starts with an empty ledger. |
| Ledger.Run.Reset | app.py:34 | After the landing page the ledger is empty. |
| Ledger.Run.FinalizeA | app.py:263-280 | Exactly one entry, flow A's projected selection, is appended after the earlier ones, which are unchanged. The next page is flow H. |
| Ledger.Run.FinalizeB | app.py:320-337 | Exactly one entry is appended at the end: flow B's rows, backfilled per key and projected. The next page is flow C. |
| Ledger.Run.FinalizeC | app.py:460-489 | The whole catalog is backfilled per combination, then filtered with `SelectC`. One entry is appended at the end. The next page is flow D. |
| Ledger.Run.FinalizeD | app.py:565-577 | Exactly one entry is appended at the end: flow D's rows, backfilled per value of the key column and projected. The next page is flow E. |
| Ledger.Run.FinalizeE | app.py:704-734 | Exactly one entry is appended at the end: the concatenated subsets, backfilled per key and projected. The next page is flow H. |
| Ledger.Run.FinalizeF | app.py:818-830 | Exactly one entry is appended at the end: flow F's rows, backfilled for the displayed keys only. The next page is flow H. |
| Ledger.Run.FinalizeH | app.py:900-917 | The ledger is unchanged when no selected material got a positive quantity. Otherwise exactly one entry is appended. The next page is the results. |
| Ledger.Export | app.py:940 | Exporting fails exactly when the ledger is empty. Otherwise the export has exactly the ledger's rows, each tagged with its entry's label. Its length is the total row count, and entry k's rows lie between those of earlier and later entries. |
| Ledger.ConcatAppend | app.py:940 | The export of two ledgers joined is the export of the first followed by that of the second. |
| Ledger.ConcatOrder | app.py:940 | Entry k's rows appear, in their own order, after those of all earlier entries and before those of all later ones. |
| Ledger.ConcatLength | app.py:940 | The export has exactly as many rows as the ledger's sheets together. |
| Ledger.TaggedMembership | app.py:940 | An entry contributes exactly its own rows, each tagged with its flow's label. |
| Ledger.ConcatProvenance | app.py:940 | An exported row is present iff it is a row of some entry, tagged with that entry's label. |
| Ledger.ThreeFlowSession | app.py:49-55 | A session answers NO to A (app.py:49-55), finalizes B (app.py:320-337) and C (app.py:460-489), answers NO to D (app.py:507-513) and finalizes E (app.py:704-734). It ends with the labels FLUJO B, FLUJO C and FLUJO E, in that order, and is sent on to flow H. |

## Left out

- HTTP plumbing is not modelled: routing, templates, `redirect`/`url_for`, and reading the form. Each page is a function or method of its explicit inputs. Redirects are `Steps.Response` values.
- Catalog loading is outside the model: reading the workbooks, stripping headers and cells, replacing the string `'nan'`, and coercing with `to_numeric`. The model takes an already normalised table. The `"Error al cargar el Excel"` answers and the missing-column messages of flows D and F are therefore absent, apart from `KeyColumnD`'s failure case.
- Quantities are integers. A form value that does not parse as a float is `None`, as in the code. Fractional quantities are not modelled.
- The JSON filter dicts passed through the query string are Dafny datatypes (`KeyFilter`, `EFilter`, `FContext`) rather than serialised text.
- Writing the workbook (`ExcelWriter`, `send_file`) is not modelled. Only the concatenation with the `Flujo` tag is. The export keeps each entry's own columns and does not build the union of column sets that `pd.concat` produces.
- The ledger is a field of one `Run`. The code shares one global list across concurrent requests, and that interleaving is not modelled.
- Upper-casing is ASCII-only (`Common.Upper`). Python's full Unicode `upper()` is not modelled.
- Where the code reads an unguarded column that the catalog lacks (for example TIPO in flows A and E), pandas would raise `KeyError`. The model treats the column as all-NaN, so no row matches.
- `renombrar_columnas` can end up with two columns of the same name, for example when `MATERIAL` and `2. MATERIAL` both exist. The model takes the renamed header's value.
- The option lists of flow F (app.py:776-780) and flow H (app.py:871) are kept in order of appearance and are not modelled. H's list also stringifies NaN as "nan".
- A catalog without a `4.CANTIDAD` column makes flows B, C, D and F raise `KeyError` (app.py:333, 474, 573, 825) and flow E fail at loading (app.py:700). In the model every row has an optional quantity, so these flows append a sheet instead of failing. Flow H creates the column (app.py:893-894), as `Ledger.LoadH` does.
- Flow H selects materials with `astype(str)`. The model compares the stored string, so a NaN material never matches.
- `Steps.SubmitSelection` for flow F carries only the comma-joined DIÁMETRO list. The DIÁMETRO CSG answer is recorded by `Filters.RecordF`, and the filter never uses it.
- `Backfill.CombosOf`: flow C reads each quantity from the form field `qty_{diam}_{tipo}` (app.py:465), so two different pairs such as ("1", "2_3") and ("1_2", "3") share one field and one value. The model keys the form by the pair and gives them independent quantities.
- Flow E starts from an empty `pd.DataFrame()` (app.py:705), so a finalize with no DIÁMETRO appends a sheet without columns. The model's entry keeps the projected columns with no rows. The export does not read the columns, so the two agree on the exported rows.
- Quantities dicts collapse a key selected twice into a single item. The model keeps one item per occurrence. The duplicates carry the same quantity and come after the first, so they change nothing.

=== FILE: backfill.dfy ===
/**
 * Quantity backfill: `df.loc[mask & empty, "4.CANTIDAD"] = qty`, run once
 * per entered quantity, in the order the quantities dict is iterated.
 */
module Backfill {
  import opened Common
  import opened Filters

  /** Which rows one entered quantity is meant for. */
  datatype Target =
    | KeyEquals(col: string, key: string)              // flows B, D, E, F: exact key
    | Combo(diam: string, tipo: string, csg: string)   // flow C: wildcard-aware combination
    | MaterialIs(material: string)                     // flow H: exact material name

  /** What counts as an empty quantity cell. */
  datatype Policy = MissingOnly | MissingOrNonPositive

  /** One `(key, qty)` item of a quantities dict; `qty` is None when the form value did not parse. */
  datatype Order = Order(target: Target, qty: Option<int>)

  predicate Targets(t: Target, r: Row)
  {
    match t
    case KeyEquals(col, key) => IsIn(r, col, [key])
    case Combo(d, tp, csg) => MatchC(r, d, tp, csg)
    case MaterialIs(m) => IsIn(r, Material, [m])
  }

  predicate IsEmpty(q: Option<int>, p: Policy)
  {
    q.None? || (p == MissingOrNonPositive && q.value <= 0)
  }

  /** The effect of one masked assignment on one row. */
  function Apply(r: Row, o: Order, p: Policy): Row
  {
    if Targets(o.target, r) && IsEmpty(r.qty, p) then r.(qty := o.qty) else r
  }

  /** The effect of a whole quantities dict on one row, applied in order. */
  function FillRow(r: Row, os: seq<Order>, p: Policy): Row
    decreases |os|
  {
    if os == [] then r else FillRow(Apply(r, os[0], p), os[1..], p)
  }

  function FillStep(rows: seq<Row>, o: Order, p: Policy): seq<Row>
  {
    seq(|rows|, i requires 0 <= i < |rows| => Apply(rows[i], o, p))
  }

  function FillAll(rows: seq<Row>, os: seq<Order>, p: Policy): seq<Row>
  {
    seq(|rows|, i requires 0 <= i < |rows| => FillRow(rows[i], os, p))
  }

  /** One masked assignment `df.loc[mask, "4.CANTIDAD"] = qty`, in place. */
  method AssignMasked(a: array<Row>, o: Order, p: Policy)
    modifies a
    ensures a[..] == FillStep(old(a[..]), o, p)
  {
    var i := 0;
    while i < a.Length
      invariant 0 <= i <= a.Length
      invariant forall j :: 0 <= j < i ==> a[j] == Apply(old(a[j]), o, p)
      invariant forall j :: i <= j < a.Length ==> a[j] == old(a[j])
    {
      a[i] := Apply(a[i], o, p);
      i := i + 1;
    }
  }

  /** The loop over the quantities dict. */
  method BackfillInPlace(a: array<Row>, os: seq<Order>, p: Policy)
    modifies a
    ensures a[..] == FillAll(old(a[..]), os, p)
  {
    ghost var original := a[..];
    var k := 0;
    while k < |os|
      invariant 0 <= k <= |os|
      invariant a[..] == FillAll(original, os[..k], p)
    {
      AssignMasked(a, os[k], p);
      FillAllSnoc(original, os[..k], os[k], p);
      assert os[..k + 1] == os[..k] + [os[k]];
      k := k + 1;
    }
    assert os[..|os|] == os;
  }

  lemma {:induction false} FillRowSnoc(r: Row, os: seq<Order>, o: Order, p: Policy)
    ensures FillRow(r, os + [o], p) == Apply(FillRow(r, os, p), o, p)
    decreases |os|
  {
    if os != [] {
      assert (os + [o])[1..] == os[1..] + [o];
      FillRowSnoc(Apply(r, os[0], p), os[1..], o, p);
    }
  }

  lemma FillAllSnoc(rows: seq<Row>, os: seq<Order>, o: Order, p: Policy)
    ensures FillAll(rows, os + [o], p) == FillStep(FillAll(rows, os, p), o, p)
  {
    forall i | 0 <= i < |rows| ensures FillAll(rows, os + [o], p)[i] == FillStep(FillAll(rows, os, p), o, p)[i] {
      FillRowSnoc(rows[i], os, o, p);
    }
  }

  /** Backfill touches nothing but the quantity. */
  lemma {:induction false} FillRowKeepsCells(r: Row, os: seq<Order>, p: Policy)
    ensures FillRow(r, os, p).cells == r.cells
    decreases |os|
  {
    if os != [] {
      FillRowKeepsCells(Apply(r, os[0], p), os[1..], p);
    }
  }

  /** A row whose quantity is not empty is never overwritten, however often backfill runs. */
  lemma {:induction false} FillRowNoOverwrite(r: Row, os: seq<Order>, p: Policy)
    requires !IsEmpty(r.qty, p)
    ensures FillRow(r, os, p) == r
  {
    if os != [] {
      FillRowNoOverwrite(r, os[1..], p);
    }
  }

  /** A row that no entered quantity is meant for is left unchanged. */
  lemma {:induction false} FillRowUntargeted(r: Row, os: seq<Order>, p: Policy)
    requires forall k :: 0 <= k < |os| ==> !Targets(os[k].target, r)
    ensures FillRow(r, os, p) == r
  {
    if os != [] {
      FillRowUntargeted(r, os[1..], p);
    }
  }

  /** Reference definition: the first entered quantity, in dict order, that is meant for the row and parsed. */
  function FirstFill(r: Row, os: seq<Order>): Option<int>
  {
    if os == [] then None
    else if Targets(os[0].target, r) && os[0].qty.Some? then os[0].qty
    else FirstFill(r, os[1..])
  }

  /**
   * Missing-only backfill: a row keeps its quantity if it had one, and
   * otherwise ends with the first parsed quantity of a matching item; an
   * unparsed one writes NaN and leaves the row open to the next item.
   */
  lemma {:induction false} FillRowFirstWins(r: Row, os: seq<Order>)
    ensures FillRow(r, os, MissingOnly).qty == if r.qty.Some? then r.qty else FirstFill(r, os)
    decreases |os|
  {
    if os != [] {
      if r.qty.Some? {
        FillRowNoOverwrite(r, os, MissingOnly);
      } else {
        var r1 := Apply(r, os[0], MissingOnly);
        FillRowFirstWins(r1, os[1..]);
        if Targets(os[0].target, r) && os[0].qty.Some? {
          FillRowNoOverwrite(r1, os[1..], MissingOnly);
        } else {
          assert r1.qty.None? && r1.cells == r.cells;
          assert r1 == r;
        }
      }
    }
  }

  /** Missing-only backfill is idempotent: applying the same quantities twice equals applying them once. */
  lemma FillIdempotent(rows: seq<Row>, os: seq<Order>)
    ensures FillAll(FillAll(rows, os, MissingOnly), os, MissingOnly) == FillAll(rows, os, MissingOnly)
  {
    var once := FillAll(rows, os, MissingOnly);
    forall i | 0 <= i < |rows| ensures FillRow(once[i], os, MissingOnly) == once[i] {
      var r := rows[i];
      FillRowFirstWins(r, os);
      FillRowKeepsCells(r, os, MissingOnly);
      if once[i].qty.Some? {
        FillRowNoOverwrite(once[i], os, MissingOnly);
      } else {
        assert once[i] == r;
      }
    }
  }

  /**
   * When every item meant for a row carries the same quantity `q`, an
   * empty row ends with `q` as soon as one item is meant for it, under
   * either emptiness policy.
   */
  lemma {:induction false} FillRowUniform(r: Row, os: seq<Order>, p: Policy, q: Option<int>)
    requires forall k :: 0 <= k < |os| && Targets(os[k].target, r) ==> os[k].qty == q
    ensures FillRow(r, os, p).qty ==
      if IsEmpty(r.qty, p) && exists k :: 0 <= k < |os| && Targets(os[k].target, r) then q else r.qty
    decreases |os|
  {
    if os != [] {
      var r1 := Apply(r, os[0], p);
      assert r1.cells == r.cells;
      FillRowUniform(r1, os[1..], p, q);
      if exists k :: 0 <= k < |os| && Targets(os[k].target, r) {
        var k :| 0 <= k < |os| && Targets(os[k].target, r);
        if k > 0 {
          assert os[1..][k - 1] == os[k];
        }
      }
      if exists k :: 0 <= k < |os| - 1 && Targets(os[1..][k].target, r) {
        var k :| 0 <= k < |os| - 1 && Targets(os[1..][k].target, r);
        assert os[k + 1] == os[1..][k];
      }
    }
  }

  // ---------------------------------------------------------------- building the dicts

  /** `request.form.get(name, type=float)`: None when the field is missing or not numeric. */
  function Entered<K>(form: map<K, int>, k: K): Option<int>
  {
    if k in form then Some(form[k]) else None
  }

  /** Some item of `os` is meant for row `r`. */
  predicate TargetedBy(os: seq<Order>, r: Row)
  {
    exists k :: 0 <= k < |os| && Targets(os[k].target, r)
  }

  lemma TargetedByAppend(a: seq<Order>, b: seq<Order>, r: Row)
    ensures TargetedBy(a + b, r) <==> TargetedBy(a, r) || TargetedBy(b, r)
  {
    if TargetedBy(a + b, r) {
      var k :| 0 <= k < |a + b| && Targets((a + b)[k].target, r);
      if k >= |a| {
        assert (a + b)[k] == b[k - |a|];
      }
    }
    if TargetedBy(b, r) {
      var k :| 0 <= k < |b| && Targets(b[k].target, r);
      assert (a + b)[|a| + k] == b[k];
    }
    if TargetedBy(a, r) {
      var k :| 0 <= k < |a| && Targets(a[k].target, r);
      assert (a + b)[k] == a[k];
    }
  }

  /**
   * `{key: qty}` for exact-key flows, one item per key in selection order:
   * an item is meant for a row exactly when the row's key cell is one of
   * the keys, and every item meant for a row carries the quantity entered
   * for that row's key.
   */
  function ExactOrders(col: string, keys: seq<string>, form: map<string, int>): (os: seq<Order>)
    ensures |os| == |keys|
    ensures forall r :: TargetedBy(os, r) <==> IsIn(r, col, keys)
    ensures forall k, r :: 0 <= k < |os| && Targets(os[k].target, r) ==>
      IsIn(r, col, keys) && os[k].qty == Entered(form, r.cells[col])
  {
    var os := seq(|keys|, i requires 0 <= i < |keys| => Order(KeyEquals(col, keys[i]), Entered(form, keys[i])));
    assert forall r :: IsIn(r, col, keys) ==> TargetedBy(os, r) by {
      forall r | IsIn(r, col, keys) ensures TargetedBy(os, r) {
        var k :| 0 <= k < |keys| && keys[k] == r.cells[col];
        assert Targets(os[k].target, r);
      }
    }
    os
  }

  /**
   * Exact-key backfill (flows B, D, E, F): a row changes only when its key
   * equals an entered key exactly and its quantity is missing, and it then
   * receives the quantity entered for that key; every other row, wildcard
   * rows included, keeps its quantity.
   */
  lemma ExactKeyBackfill(rows: seq<Row>, col: string, keys: seq<string>, form: map<string, int>, i: nat)
    requires i < |rows|
    ensures var filled := FillAll(rows, ExactOrders(col, keys, form), MissingOnly)[i];
      && filled.cells == rows[i].cells
      && filled.qty == if rows[i].qty.None? && IsIn(rows[i], col, keys)
                       then Entered(form, rows[i].cells[col]) else rows[i].qty
  {
    var r := rows[i];
    var os := ExactOrders(col, keys, form);
    FillRowKeepsCells(r, os, MissingOnly);
    if col in r.cells {
      FillRowUniform(r, os, MissingOnly, Entered(form, r.cells[col]));
      if IsIn(r, col, keys) {
        assert TargetedBy(os, r);
      }
    } else {
      FillRowUntargeted(r, os, MissingOnly);
    }
  }

  /** A flow C item: a combination under the recorded CSG, carrying the quantity entered for it. */
  predicate CarriesEntered(o: Order, form: map<(string, string), int>, csg: string)
  {
    o.target.Combo? && o.target.csg == csg && o.qty == Entered(form, (o.target.diam, o.target.tipo))
  }

  /**
   * The (DIÁMETRO, TIPO) items of one DIÁMETRO, one per recorded TIPO: they
   * are meant for exactly the rows one of those combinations matches, and
   * each carries the quantity entered for its own combination.
   */
  function CombosOf(diam: string, tipos: seq<string>, form: map<(string, string), int>, csg: string): (os: seq<Order>)
    ensures |os| == |tipos|
    ensures forall r :: TargetedBy(os, r) <==> exists tp :: tp in tipos && MatchC(r, diam, tp, csg)
    ensures forall o :: o in os ==> CarriesEntered(o, form, csg) && o.target.diam == diam
  {
    var os := seq(|tipos|, i requires 0 <= i < |tipos| => Order(Combo(diam, tipos[i], csg), Entered(form, (diam, tipos[i]))));
    assert forall r :: (exists tp :: tp in tipos && MatchC(r, diam, tp, csg)) ==> TargetedBy(os, r) by {
      forall r | exists tp :: tp in tipos && MatchC(r, diam, tp, csg) ensures TargetedBy(os, r) {
        var tp :| tp in tipos && MatchC(r, diam, tp, csg);
        var k :| 0 <= k < |tipos| && tipos[k] == tp;
        assert Targets(os[k].target, r);
      }
    }
    os
  }

  /** Flow C's quantities dict: for each chosen DIÁMETRO, for each of its recorded TIPO values. */
  function OrdersC(diams: seq<string>, tipos: map<string, seq<string>>, form: map<(string, string), int>, csg: string): seq<Order>
  {
    if diams == [] then []
    else
      var d := diams[|diams| - 1];
      OrdersC(diams[..|diams| - 1], tipos, form, csg) + CombosOf(d, if d in tipos then tipos[d] else [], form, csg)
  }

  /**
   * Flow C's items are meant for exactly the rows some recorded combination
   * of a chosen DIÁMETRO matches, and each carries its own combination's
   * entered quantity.
   */
  lemma {:induction false} OrdersCTargets(diams: seq<string>, tipos: map<string, seq<string>>,
                                          form: map<(string, string), int>, csg: string, r: Row)
    ensures forall o :: o in OrdersC(diams, tipos, form, csg) ==> CarriesEntered(o, form, csg)
    ensures TargetedBy(OrdersC(diams, tipos, form, csg), r) <==>
      exists d, tp :: d in diams && d in tipos && tp in tipos[d] && MatchC(r, d, tp, csg)
  {
    if diams != [] {
      var init, d := diams[..|diams| - 1], diams[|diams| - 1];
      var tl := if d in tipos then tipos[d] else [];
      OrdersCTargets(init, tipos, form, csg, r);
      TargetedByAppend(OrdersC(init, tipos, form, csg), CombosOf(d, tl, form, csg), r);
      assert diams == init + [d];
      if exists e, tp :: e in diams && e in tipos && tp in tipos[e] && MatchC(r, e, tp, csg) {
        var e, tp :| e in diams && e in tipos && tp in tipos[e] && MatchC(r, e, tp, csg);
        if e != d {
          assert e in init;
        }
      }
    }
  }

  /**
   * Flow H's quantities dict, one item per selected material: an item is
   * meant for a row exactly when the row's material was selected, and every
   * item meant for a row carries the quantity entered for that material.
   */
  function OrdersH(materials: seq<string>, form: map<string, int>): (os: seq<Order>)
    ensures |os| == |materials|
    ensures forall r :: TargetedBy(os, r) <==> IsIn(r, Material, materials)
    ensures forall k, r :: 0 <= k < |os| && Targets(os[k].target, r) ==>
      IsIn(r, Material, materials) && os[k].qty == Entered(form, r.cells[Material])
  {
    var os := seq(|materials|, i requires 0 <= i < |materials| => Order(MaterialIs(materials[i]), Entered(form, materials[i])));
    assert forall r :: IsIn(r, Material, materials) ==> TargetedBy(os, r) by {
      forall r | IsIn(r, Material, materials) ensures TargetedBy(os, r) {
        var k :| 0 <= k < |materials| && materials[k] == r.cells[Material];
        assert Targets(os[k].target, r);
      }
    }
    os
  }

  /**
   * Flow H: a row of a selected material whose quantity is missing or not
   * positive receives the quantity entered for its material; any other row
   * keeps its quantity.
   */
  lemma MaterialBackfill(rows: seq<Row>, materials: seq<string>, form: map<string, int>, i: nat)
    requires i < |rows|
    ensures var filled := FillAll(rows, OrdersH(materials, form), MissingOrNonPositive)[i];
      && filled.cells == rows[i].cells
      && filled.qty == if IsEmpty(rows[i].qty, MissingOrNonPositive) && IsIn(rows[i], Material, materials)
                       then Entered(form, rows[i].cells[Material]) else rows[i].qty
  {
    var r := rows[i];
    var os := OrdersH(materials, form);
    FillRowKeepsCells(r, os, MissingOrNonPositive);
    if Material in r.cells {
      FillRowUniform(r, os, MissingOrNonPositive, Entered(form, r.cells[Material]));
      if IsIn(r, Material, materials) {
        assert TargetedBy(os, r);
      }
    } else {
      FillRowUntargeted(r, os, MissingOrNonPositive);
    }
  }

  /**
   * Flow C: a row that several combinations match keeps the quantity of the
   * first one (in dict order) that carried a parsed quantity.
   */
  lemma FirstComboWins(rows: seq<Row>, diams: seq<string>, tipos: map<string, seq<string>>,
                       form: map<(string, string), int>, csg: string, i: nat)
    requires i < |rows| && rows[i].qty.None?
    ensures FillAll(rows, OrdersC(diams, tipos, form, csg), MissingOnly)[i].qty ==
            FirstFill(rows[i], OrdersC(diams, tipos, form, csg))
  {
    FillRowFirstWins(rows[i], OrdersC(diams, tipos, form, csg));
  }

  /** The scenario of two catalog rows of one key, one empty and one already quantified. */
  lemma ScenarioTwoRows()
    ensures var empty := Row(map[Diametro := "A", Tipo := "X"], None);
      var full := Row(map[Diametro := "A", Tipo := Wildcard], Some(5));
      FillAll([empty, full], ExactOrders(Diametro, ["A"], map["A" := 3]), MissingOnly)
        == [empty.(qty := Some(3)), full]
  {
    var empty := Row(map[Diametro := "A", Tipo := "X"], None);
    var full := Row(map[Diametro := "A", Tipo := Wildcard], Some(5));
    var os := ExactOrders(Diametro, ["A"], map["A" := 3]);
    ExactKeyBackfill([empty, full], Diametro, ["A"], map["A" := 3], 0);
    ExactKeyBackfill([empty, full], Diametro, ["A"], map["A" := 3], 1);
  }
}

=== FILE: cascade.dfy ===
/**
 * The option lists offered at each cascade step: the sorted distinct values
 * of the next column among the rows that survive the earlier choices, with
 * the wildcard removed, and the fallbacks the handlers substitute.
 */
module Cascade {
  import opened Common
  import opened Ordering
  import opened Filters

  /** How a step hides the wildcard from its option list. */
  datatype Exclusion =
    | CaseInsensitive   // `x.upper() != "TODOS"`
    | ExactToken        // `x != "TODOS"`
    | NoExclusion       // flow D lists every value

  predicate Excluded(v: string, e: Exclusion)
  {
    match e
    case CaseInsensitive => IsWildcardCI(v)
    case ExactToken => v == Wildcard
    case NoExclusion => false
  }

  /** Some row carries `v` in column `col`. */
  predicate Carries(rows: seq<Row>, col: string, v: string)
  {
    exists r :: r in rows && col in r.cells && r.cells[col] == v
  }

  /** `[x for x in subset[col].dropna() if not excluded]`, in row order. */
  function Values(rows: seq<Row>, col: string, e: Exclusion): seq<string>
  {
    if rows == [] then []
    else
      (if col in rows[0].cells && !Excluded(rows[0].cells[col], e) then [rows[0].cells[col]] else [])
      + Values(rows[1..], col, e)
  }

  lemma {:induction false} ValuesMembership(rows: seq<Row>, col: string, e: Exclusion, v: string)
    ensures v in Values(rows, col, e) <==> !Excluded(v, e) && Carries(rows, col, v)
  {
    if rows != [] {
      ValuesMembership(rows[1..], col, e, v);
      assert rows == [rows[0]] + rows[1..];
      if Carries(rows, col, v) && !Excluded(v, e) {
        var r :| r in rows && col in r.cells && r.cells[col] == v;
        if r != rows[0] {
          assert r in rows[1..];
        }
      }
    }
  }

  /** `sorted(unique(...))` of the non-excluded values of `col`. */
  function Distinct(rows: seq<Row>, col: string, e: Exclusion): (o: seq<string>)
    ensures StrictlySorted(o)
    ensures forall v :: v in o <==> !Excluded(v, e) && Carries(rows, col, v)
  {
    forall v ensures v in Values(rows, col, e) <==> !Excluded(v, e) && Carries(rows, col, v) {
      ValuesMembership(rows, col, e, v);
    }
    SortedDistinct(Values(rows, col, e))
  }

  /** `if not opciones: opciones = ["TODOS"]`. */
  function OrWildcard(o: seq<string>): seq<string>
  {
    if o == [] then [Wildcard] else o
  }

  // ---------------------------------------------------------------- flow A

  /** The rows of one DIÁMETRO (or TODOS) that satisfy the choices made before `d`. */
  function NarrowA(rows: seq<Row>, diam: string, f: KeyFilter, d: Dim): seq<Row>
  {
    Keep(rows, r => MatchKeyA(r, diam, f.Before(d)))
  }

  /**
   * The options of dimension `d` for one DIÁMETRO. TIPO has no column guard;
   * a grade column missing from the catalog yields ["Seleccionar"].
   */
  function OptionsA(t: Table, diam: string, f: KeyFilter, d: Dim): seq<string>
  {
    if d != TipoDim && d.Column() !in t.columns then [Placeholder]
    else OrWildcard(Distinct(NarrowA(t.rows, diam, f, d), d.Column(), CaseInsensitive))
  }

  lemma NarrowAMembership(rows: seq<Row>, diam: string, f: KeyFilter, d: Dim, r: Row)
    ensures r in NarrowA(rows, diam, f, d) <==> r in rows && MatchKeyA(r, diam, f.Before(d))
  {
    KeepMembership(rows, r => MatchKeyA(r, diam, f.Before(d)), r);
  }

  /**
   * The shape of a flow A option list: the placeholder when the grade column
   * is absent, ["TODOS"] exactly when the surviving rows carry no other
   * value, and otherwise the sorted distinct non-wildcard values they carry.
   */
  lemma OptionsAShape(t: Table, diam: string, f: KeyFilter, d: Dim)
    ensures d != TipoDim && d.Column() !in t.columns ==> OptionsA(t, diam, f, d) == [Placeholder]
    ensures d == TipoDim || d.Column() in t.columns ==>
      var surviving := NarrowA(t.rows, diam, f, d);
      && (OptionsA(t, diam, f, d) == [Wildcard] <==>
           forall v :: Carries(surviving, d.Column(), v) ==> IsWildcardCI(v))
      && (OptionsA(t, diam, f, d) != [Wildcard] ==>
           && StrictlySorted(OptionsA(t, diam, f, d))
           && forall v :: v in OptionsA(t, diam, f, d) <==> Carries(surviving, d.Column(), v) && !IsWildcardCI(v))
  {
    if d == TipoDim || d.Column() in t.columns {
      var surviving := NarrowA(t.rows, diam, f, d);
      var o := Distinct(surviving, d.Column(), CaseInsensitive);
      if o == [] {
        assert forall v :: Carries(surviving, d.Column(), v) ==> IsWildcardCI(v);
      } else {
        assert o[0] in o;
        assert o != [Wildcard] by {
          WildcardSpellings();
        }
      }
    }
  }

  /**
   * Picking an offered value that is a real option never leaves its
   * DIÁMETRO without rows: some catalog row passes the filter that the
   * recorded choice produces.
   */
  lemma OfferedOptionIsInhabited(t: Table, diam: string, f: KeyFilter, d: Dim, v: string)
    requires d == TipoDim || d.Column() in t.columns
    requires v in OptionsA(t, diam, f, d) && v != Wildcard
    ensures exists r :: r in t.rows && MatchKeyA(r, diam, f.Before(d).With(d, Decode(d, v)))
  {
    var surviving := NarrowA(t.rows, diam, f, d);
    var col := d.Column();
    assert Carries(surviving, col, v);
    var r :| r in surviving && col in r.cells && r.cells[col] == v;
    NarrowAMembership(t.rows, diam, f, d, r);
    assert f.Before(d).Get(d) == Unconstrained;
    assert MatchKeyA(r, diam, f.Before(d).With(d, Decode(d, v)));
  }

  /**
   * The ["TODOS"] fallback is recorded differently per dimension: for TIPO
   * it means "no filter", for a grade it is the constraint {TODOS}, which
   * keeps only rows whose grade is literally TODOS (a NaN grade is dropped).
   */
  lemma FallbackPolicies(r: Row, diam: string, g: KeyFilter, d: Dim)
    ensures MatchKeyA(r, diam, g.With(TipoDim, Decode(TipoDim, Wildcard))) ==
            MatchKeyA(r, diam, g.With(TipoDim, Unconstrained))
    ensures d != TipoDim && MatchKeyA(r, diam, g.With(d, Decode(d, Wildcard))) ==>
            d.Column() in r.cells && r.cells[d.Column()] == Wildcard
  {
  }

  /** The rows keyed exactly on `diam`: the TODOS rows are not added. */
  function ExactRows(rows: seq<Row>, diam: string): seq<Row>
  {
    Keep(rows, r => IsIn(r, Diametro, [diam]))
  }

  lemma ExactRowsMembership(rows: seq<Row>, diam: string)
    ensures forall r :: r in ExactRows(rows, diam) <==> r in rows && IsIn(r, Diametro, [diam])
  {
    forall r {
      KeepMembership(rows, r => IsIn(r, Diametro, [diam]), r);
    }
  }

  // ---------------------------------------------------------------- flow C

  /** TIPO options of one DIÁMETRO: exact-key rows only, exact-token exclusion. */
  function OptionsTipoC(t: Table, diam: string): seq<string>
  {
    OrWildcard(Distinct(ExactRows(t.rows, diam), Tipo, ExactToken))
  }

  /**
   * Flow C's TIPO list is ["TODOS"] exactly when no row keyed on the
   * DIÁMETRO carries another TIPO; otherwise it is sorted, free of the
   * exact token TODOS, and holds precisely the TIPO values of those rows.
   */
  lemma OptionsTipoCShape(t: Table, diam: string, v: string)
    ensures OptionsTipoC(t, diam) == [Wildcard] <==>
      forall r :: r in t.rows && IsIn(r, Diametro, [diam]) && Tipo in r.cells ==> r.cells[Tipo] == Wildcard
    ensures OptionsTipoC(t, diam) != [Wildcard] ==>
      StrictlySorted(OptionsTipoC(t, diam)) && Wildcard !in OptionsTipoC(t, diam)
    ensures v != Wildcard ==>
      (v in OptionsTipoC(t, diam) <==> exists r :: r in t.rows && IsIn(r, Diametro, [diam]) && IsIn(r, Tipo, [v]))
  {
    var exact := ExactRows(t.rows, diam);
    var o := Distinct(exact, Tipo, ExactToken);
    ExactRowsMembership(t.rows, diam);
    if o == [] {
      forall r | r in t.rows && IsIn(r, Diametro, [diam]) && Tipo in r.cells
        ensures r.cells[Tipo] == Wildcard
      {
        assert Carries(exact, Tipo, r.cells[Tipo]);
      }
    } else {
      assert o[0] in o;
      var r :| r in exact && Tipo in r.cells && r.cells[Tipo] == o[0];
      assert r in t.rows && IsIn(r, Diametro, [diam]) && r.cells[Tipo] != Wildcard;
    }
    if v != Wildcard {
      if v in OptionsTipoC(t, diam) {
        var r :| r in exact && Tipo in r.cells && r.cells[Tipo] == v;
        assert r in t.rows && IsIn(r, Diametro, [diam]) && IsIn(r, Tipo, [v]);
      }
      if exists r :: r in t.rows && IsIn(r, Diametro, [diam]) && IsIn(r, Tipo, [v]) {
        var r :| r in t.rows && IsIn(r, Diametro, [diam]) && IsIn(r, Tipo, [v]);
        assert Carries(exact, Tipo, v);
      }
    }
  }

  /** Flow C hides only the exact token: a "todos" TIPO is offered as an option. */
  lemma FlowCOffersLowercaseTodos()
    ensures IsWildcardCI("todos")
    ensures var r := Row(map[Diametro := "2 3/8", Tipo := "todos"], None);
      "todos" in OptionsTipoC(Table({Diametro, Tipo}, [r]), "2 3/8")
  {
    WildcardSpellings();
    var r := Row(map[Diametro := "2 3/8", Tipo := "todos"], None);
    assert IsIn(r, Diametro, ["2 3/8"]) && IsIn(r, Tipo, ["todos"]);
    OptionsTipoCShape(Table({Diametro, Tipo}, [r]), "2 3/8", "todos");
  }

  /** The rows the DIÁMETRO CSG step draws its options from. */
  predicate CsgCandidateC(r: Row, diams: seq<string>, tipos: map<string, seq<string>>)
  {
    IsIn(r, Diametro, DiamFilterC(diams)) && Tipo in r.cells && r.cells[Tipo] in UnionTiposC(tipos)
  }

  function CsgOptionsC(t: Table, diams: seq<string>, tipos: map<string, seq<string>>): seq<string>
  {
    Distinct(Keep(t.rows, r => CsgCandidateC(r, diams, tipos)), DiametroCsg, ExactToken)
  }

  /**
   * The DIÁMETRO CSG options are sorted and hold exactly the non-TODOS CSG
   * values of the rows whose DIÁMETRO is a chosen key or TODOS and whose
   * TIPO was ticked for some key (or is TODOS, once any key was chosen).
   */
  lemma CsgOptionsShape(t: Table, diams: seq<string>, tipos: map<string, seq<string>>, v: string)
    ensures StrictlySorted(CsgOptionsC(t, diams, tipos))
    ensures v in CsgOptionsC(t, diams, tipos) <==>
      v != Wildcard && exists r :: (r in t.rows && IsIn(r, DiametroCsg, [v])
        && Diametro in r.cells && (r.cells[Diametro] in diams || r.cells[Diametro] == Wildcard)
        && Tipo in r.cells
        && ((r.cells[Tipo] == Wildcard && tipos != map[]) || exists d :: d in tipos && r.cells[Tipo] in tipos[d]))
  {
    var cands := Keep(t.rows, r => CsgCandidateC(r, diams, tipos));
    forall r ensures r in cands <==> r in t.rows && CsgCandidateC(r, diams, tipos) {
      KeepMembership(t.rows, r => CsgCandidateC(r, diams, tipos), r);
    }
    if v in CsgOptionsC(t, diams, tipos) {
      var r :| r in cands && DiametroCsg in r.cells && r.cells[DiametroCsg] == v;
      assert IsIn(r, DiametroCsg, [v]);
    }
    if v != Wildcard && exists r :: (r in t.rows && IsIn(r, DiametroCsg, [v])
        && Diametro in r.cells && (r.cells[Diametro] in diams || r.cells[Diametro] == Wildcard)
        && Tipo in r.cells
        && ((r.cells[Tipo] == Wildcard && tipos != map[]) || exists d :: d in tipos && r.cells[Tipo] in tipos[d])) {
      var r :| r in t.rows && IsIn(r, DiametroCsg, [v])
        && Diametro in r.cells && (r.cells[Diametro] in diams || r.cells[Diametro] == Wildcard)
        && Tipo in r.cells
        && ((r.cells[Tipo] == Wildcard && tipos != map[]) || exists d :: d in tipos && r.cells[Tipo] in tipos[d]);
      assert CsgCandidateC(r, diams, tipos);
      assert Carries(cands, DiametroCsg, v);
    }
  }

  /**
   * The DIÁMETRO CSG value flow C finally uses: TODOS when there is nothing
   * to offer (the step is skipped) or nothing was chosen, else the choice.
   */
  function ChosenCsgC(t: Table, diams: seq<string>, tipos: map<string, seq<string>>, answer: Option<string>): (csg: string)
    ensures csg != Wildcard ==> answer == Some(csg) && csg != "" && CsgOptionsC(t, diams, tipos) != []
    ensures CsgOptionsC(t, diams, tipos) == [] ==> csg == Wildcard
    ensures CsgOptionsC(t, diams, tipos) != [] && answer.Some? && answer.value != "" ==> csg == answer.value
  {
    if CsgOptionsC(t, diams, tipos) == [] then Wildcard
    else if answer.None? || answer.value == "" then Wildcard
    else answer.value
  }

  // ---------------------------------------------------------------- flow E

  datatype EOptions = EOptions(tipos: seq<string>, acero: seq<string>, aceroCup: seq<string>, tipoCup: seq<string>)

  /** A grade list of flow E: placeholder when the column is absent, no TODOS fallback. */
  function GradeOptionsE(t: Table, exact: seq<Row>, col: string): seq<string>
  {
    if col !in t.columns then [Placeholder] else Distinct(exact, col, CaseInsensitive)
  }

  /** The option lists of one DIÁMETRO on flujo_e_filtros (exact-key rows, no TODOS rows). */
  function OptionsE(t: Table, diam: string): EOptions
  {
    var exact := ExactRows(t.rows, diam);
    EOptions(OrWildcard(Distinct(exact, Tipo, CaseInsensitive)),
             GradeOptionsE(t, exact, Acero),
             GradeOptionsE(t, exact, AceroCupla),
             GradeOptionsE(t, exact, TipoCupla))
  }

  /** `o` lists, sorted and once each, exactly the non-wildcard values `rows` carry in `col`. */
  ghost predicate ListsExactly(o: seq<string>, rows: seq<Row>, col: string)
  {
    StrictlySorted(o) && forall v :: v in o <==> Carries(rows, col, v) && !IsWildcardCI(v)
  }

  /** A flow E grade list: the placeholder for an absent column, else the listed values. */
  ghost predicate GradeListedE(t: Table, exact: seq<Row>, col: string, o: seq<string>)
  {
    (col !in t.columns ==> o == [Placeholder]) && (col in t.columns ==> ListsExactly(o, exact, col))
  }

  /**
   * Flow E's TIPO list falls back to ["TODOS"], its grade lists do not: each
   * is the placeholder when its column is absent and otherwise lists the
   * values of the exact-key rows, so a present grade column whose rows carry
   * only wildcards or NaN offers nothing.
   */
  lemma OptionsEShape(t: Table, diam: string)
    ensures var exact := ExactRows(t.rows, diam); var o := OptionsE(t, diam);
      && (o.tipos == [Wildcard] <==> forall v :: Carries(exact, Tipo, v) ==> IsWildcardCI(v))
      && (o.tipos != [Wildcard] ==> ListsExactly(o.tipos, exact, Tipo))
      && GradeListedE(t, exact, Acero, o.acero)
      && GradeListedE(t, exact, AceroCupla, o.aceroCup)
      && GradeListedE(t, exact, TipoCupla, o.tipoCup)
      && (Acero in t.columns ==> (o.acero == [] <==> forall v :: Carries(exact, Acero, v) ==> IsWildcardCI(v)))
  {
    var exact := ExactRows(t.rows, diam);
    var o := Distinct(exact, Tipo, CaseInsensitive);
    if o != [] {
      assert o[0] in o;
      assert o != [Wildcard] by {
        WildcardSpellings();
      }
    }
    var a := Distinct(exact, Acero, CaseInsensitive);
    if Acero in t.columns && a != [] {
      assert a[0] in a;
    }
  }
}

=== FILE: common.dfy ===
/**
 * The abstract catalog table every flow works on: a row maps a column name
 * to a trimmed cell string, plus the quantity column "4.CANTIDAD" kept apart
 * as an optional integer (None stands for a missing / NaN quantity).
 */
module Common {

  datatype Option<T> = None | Some(value: T)

  /** Reserved wildcard token of the catalogs. */
  const Wildcard: string := "TODOS"
  /** Placeholder offered when a grade column is absent; recorded as "no filter". */
  const Placeholder: string := "Seleccionar"

  const Diametro: string := "DIÁMETRO"
  const Tipo: string := "TIPO"
  const Acero: string := "GRADO DE ACERO"
  const AceroCupla: string := "GRADO DE ACERO CUPLA"
  const TipoCupla: string := "TIPO DE CUPLA"
  const DiametroCsg: string := "DIÁMETRO CSG"
  const Material: string := "2. MATERIAL"
  const Cantidad: string := "4.CANTIDAD"

  /** A catalog row. A column missing from `cells` is a NaN cell. */
  datatype Row = Row(cells: map<string, string>, qty: Option<int>)

  /** A loaded catalog: the set of its column headers and its rows in file order. */
  datatype Table = Table(columns: set<string>, rows: seq<Row>)

  /** pandas `isin`: a NaN cell is never a member. */
  predicate IsIn(r: Row, col: string, vals: seq<string>)
  {
    col in r.cells && r.cells[col] in vals
  }

  /** ASCII upper-casing, standing in for Python's `str.upper`. */
  function UpperChar(c: char): char
  {
    if 'a' <= c <= 'z' then (c as int - 32) as char else c
  }

  function Upper(s: string): string
  {
    seq(|s|, i requires 0 <= i < |s| => UpperChar(s[i]))
  }

  /** `x.upper() == "TODOS"`: the case-insensitive wildcard test. */
  predicate IsWildcardCI(s: string)
  {
    Upper(s) == Wildcard
  }

  /** The lower-case partner of an upper-case ASCII letter. */
  function LowerChar(c: char): char
  {
    if 'A' <= c <= 'Z' then (c as int + 32) as char else c
  }

  /**
   * The case-insensitive test accepts exactly the five-letter strings that
   * spell TODOS with each letter in either case.
   */
  lemma WildcardCaseInsensitive(s: string)
    ensures IsWildcardCI(s) <==>
      |s| == |Wildcard| && forall i :: 0 <= i < |s| ==> s[i] == Wildcard[i] || s[i] == LowerChar(Wildcard[i])
  {
    if |s| == |Wildcard| {
      if forall i :: 0 <= i < |s| ==> s[i] == Wildcard[i] || s[i] == LowerChar(Wildcard[i]) {
        forall i | 0 <= i < |s| ensures Upper(s)[i] == Wildcard[i] {
          assert 'A' <= Wildcard[i] <= 'Z';
        }
      }
      if IsWildcardCI(s) {
        forall i | 0 <= i < |s| ensures s[i] == Wildcard[i] || s[i] == LowerChar(Wildcard[i]) {
          assert UpperChar(s[i]) == Wildcard[i];
        }
      }
    }
  }

  lemma WildcardSpellings()
    ensures IsWildcardCI("TODOS") && IsWildcardCI("todos") && IsWildcardCI("Todos")
    ensures !IsWildcardCI("TODO") && !IsWildcardCI("TODOS ")
  {
    assert Upper("todos") == "TODOS";
    assert Upper("Todos") == "TODOS";
    assert Upper("TODOS") == "TODOS";
  }

  /** Boolean-mask selection `df[cond]`: the rows satisfying `p`, in order. */
  function Keep<T>(xs: seq<T>, p: T -> bool): seq<T>
  {
    if xs == [] then [] else (if p(xs[0]) then [xs[0]] else []) + Keep(xs[1..], p)
  }

  /** Selection by an explicit mask of the same length. */
  function Select<T>(xs: seq<T>, mask: seq<bool>): seq<T>
    requires |mask| == |xs|
  {
    if xs == [] then [] else (if mask[0] then [xs[0]] else []) + Select(xs[1..], mask[1..])
  }

  /** `xs` is obtained from `ys` by deleting elements (order preserved). */
  predicate SubSeq<T(==)>(xs: seq<T>, ys: seq<T>)
  {
    if xs == [] then true
    else if ys == [] then false
    else if xs[0] == ys[0] then SubSeq(xs[1..], ys[1..])
    else SubSeq(xs, ys[1..])
  }

  lemma {:induction false} KeepMembership<T>(xs: seq<T>, p: T -> bool, x: T)
    ensures x in Keep(xs, p) <==> x in xs && p(x)
  {
    if xs != [] {
      KeepMembership(xs[1..], p, x);
      assert xs == [xs[0]] + xs[1..];
    }
  }

  lemma {:induction false} SelectIsKeep<T>(xs: seq<T>, mask: seq<bool>, p: T -> bool)
    requires |mask| == |xs|
    requires forall j :: 0 <= j < |xs| ==> mask[j] == p(xs[j])
    ensures Select(xs, mask) == Keep(xs, p)
  {
    if xs != [] {
      SelectIsKeep(xs[1..], mask[1..], p);
    }
  }

  lemma {:induction false} SubSeqRefl<T>(xs: seq<T>)
    ensures SubSeq(xs, xs)
  {
    if xs != [] {
      SubSeqRefl(xs[1..]);
    }
  }

  lemma {:induction false} SubSeqDropFirst<T>(xs: seq<T>, ys: seq<T>)
    requires xs != [] && SubSeq(xs, ys)
    ensures SubSeq(xs[1..], ys)
    decreases |ys|, 0
  {
    if ys != [] {
      if xs[0] == ys[0] {
        SubSeqSkip(xs[1..], ys[1..], ys[0]);
      } else {
        SubSeqDropFirst(xs, ys[1..]);
        SubSeqSkip(xs[1..], ys[1..], ys[0]);
      }
    }
  }

  /** Adding an element in front of the larger sequence keeps a subsequence. */
  lemma {:induction false} SubSeqSkip<T>(xs: seq<T>, ys: seq<T>, y: T)
    requires SubSeq(xs, ys)
    ensures SubSeq(xs, [y] + ys)
    decreases |ys|, 1
  {
    var zs := [y] + ys;
    assert zs[1..] == ys;
    if xs != [] && xs[0] == y {
      SubSeqDropFirst(xs, ys);
    }
  }

  /** `df[cond]` is an order-preserving subsequence of the table. */
  lemma {:induction false} KeepIsSubSeq<T>(xs: seq<T>, p: T -> bool)
    ensures SubSeq(Keep(xs, p), xs)
  {
    if xs != [] {
      KeepIsSubSeq(xs[1..], p);
      var k := Keep(xs[1..], p);
      if p(xs[0]) {
        assert Keep(xs, p) == [xs[0]] + k;
        assert ([xs[0]] + k)[1..] == k;
      } else {
        assert Keep(xs, p) == k;
        SubSeqSkip(k, xs[1..], xs[0]);
        assert [xs[0]] + xs[1..] == xs;
      }
    }
  }

  /** A weaker row condition selects a super-sequence of the rows a stronger one selects. */
  lemma {:induction false} KeepMonotone<T>(xs: seq<T>, p: T -> bool, q: T -> bool)
    requires forall x :: x in xs && p(x) ==> q(x)
    ensures SubSeq(Keep(xs, p), Keep(xs, q))
  {
    if xs != [] {
      KeepMonotone(xs[1..], p, q);
      var kp, kq := Keep(xs[1..], p), Keep(xs[1..], q);
      if p(xs[0]) {
        assert Keep(xs, p) == [xs[0]] + kp;
        assert Keep(xs, q) == [xs[0]] + kq;
        assert ([xs[0]] + kp)[1..] == kp;
        assert ([xs[0]] + kq)[1..] == kq;
      } else if q(xs[0]) {
        assert Keep(xs, p) == kp;
        assert Keep(xs, q) == [xs[0]] + kq;
        SubSeqSkip(kp, kq, xs[0]);
      } else {
        assert Keep(xs, p) == kp;
        assert Keep(xs, q) == kq;
      }
    }
  }
}

=== FILE: filters.dfy ===
/**
 * The row-selection predicates of the flows and the loops that evaluate them
 * (the `final_condition` / `temp` masks and the per-key `concat`).
 */
module Filters {
  import opened Common

  /** What a cascade step recorded for one dimension of one key. */
  datatype Choice = Unconstrained | Constrained(value: string)

  /** The four cascading dimensions of the "ajuste de medida" flow, in cascade order. */
  datatype Dim = TipoDim | AceroDim | AceroCupDim | TipoCupDim {
    function Column(): string
    {
      match this
      case TipoDim => Tipo
      case AceroDim => Acero
      case AceroCupDim => AceroCupla
      case TipoCupDim => TipoCupla
    }

    function Rank(): nat
    {
      match this
      case TipoDim => 0
      case AceroDim => 1
      case AceroCupDim => 2
      case TipoCupDim => 3
    }
  }

  /** The filter dict kept for one DIÁMETRO. */
  datatype KeyFilter = KeyFilter(tipo: Choice, acero: Choice, aceroCup: Choice, tipoCup: Choice) {
    function Get(d: Dim): Choice
    {
      match d
      case TipoDim => tipo
      case AceroDim => acero
      case AceroCupDim => aceroCup
      case TipoCupDim => tipoCup
    }

    function With(d: Dim, c: Choice): KeyFilter
    {
      match d
      case TipoDim => this.(tipo := c)
      case AceroDim => this.(acero := c)
      case AceroCupDim => this.(aceroCup := c)
      case TipoCupDim => this.(tipoCup := c)
    }

    /** Only the dimensions strictly before `d` in the cascade are kept. */
    function Before(d: Dim): KeyFilter
    {
      KeyFilter(
        if d.Rank() > 0 then tipo else Unconstrained,
        if d.Rank() > 1 then acero else Unconstrained,
        if d.Rank() > 2 then aceroCup else Unconstrained,
        Unconstrained)
    }
  }

  const Open: KeyFilter := KeyFilter(Unconstrained, Unconstrained, Unconstrained, Unconstrained)

  /**
   * The sentinel strings of the stored filter dict: "TODOS" leaves TIPO
   * unconstrained, "Seleccionar" leaves a grade unconstrained; every other
   * string, "TODOS" for a grade included, is a real constraint.
   */
  function Decode(d: Dim, stored: string): (c: Choice)
    ensures c == Unconstrained <==> stored == (if d == TipoDim then Wildcard else Placeholder)
    ensures c.Constrained? ==> c.value == stored
  {
    if d == TipoDim then
      (if stored == Wildcard then Unconstrained else Constrained(stored))
    else
      (if stored == Placeholder then Unconstrained else Constrained(stored))
  }

  /** The default a missing form field or dict entry stands for. */
  function Default(d: Dim): string
  {
    if d == TipoDim then Wildcard else Placeholder
  }

  /** `filtros.get(diam, {})`, with every missing entry read as its default. */
  function FilterFor(ctx: map<string, KeyFilter>, diam: string): KeyFilter
  {
    if diam in ctx then ctx[diam] else Open
  }

  /** One AND-clause: omitted when unconstrained, else `value in {choice, TODOS}`. */
  predicate Clause(r: Row, col: string, c: Choice)
  {
    match c
    case Unconstrained => true
    case Constrained(v) => IsIn(r, col, [v, Wildcard])
  }

  /** The per-DIÁMETRO conjunction of flow A. */
  predicate MatchKeyA(r: Row, diam: string, f: KeyFilter)
  {
    && IsIn(r, Diametro, [diam, Wildcard])
    && Clause(r, Tipo, f.tipo)
    && Clause(r, Acero, f.acero)
    && Clause(r, AceroCupla, f.aceroCup)
    && Clause(r, TipoCupla, f.tipoCup)
  }

  /** The disjunction over the chosen DIÁMETRO values. */
  predicate MatchA(r: Row, diams: seq<string>, ctx: map<string, KeyFilter>)
  {
    exists k :: 0 <= k < |diams| && MatchKeyA(r, diams[k], FilterFor(ctx, diams[k]))
  }

  function FlowARows(rows: seq<Row>, diams: seq<string>, ctx: map<string, KeyFilter>): seq<Row>
  {
    Keep(rows, r => MatchA(r, diams, ctx))
  }

  /** Flow A's final step: OR-accumulates one mask per chosen DIÁMETRO, then selects. */
  method SelectA(rows: seq<Row>, diams: seq<string>, ctx: map<string, KeyFilter>)
    returns (selected: seq<Row>)
    ensures selected == FlowARows(rows, diams, ctx)
  {
    var finalCondition := seq(|rows|, j => false);
    var i := 0;
    while i < |diams|
      invariant 0 <= i <= |diams|
      invariant |finalCondition| == |rows|
      invariant forall j :: 0 <= j < |rows| ==>
        (finalCondition[j] <==> exists k :: 0 <= k < i && MatchKeyA(rows[j], diams[k], FilterFor(ctx, diams[k])))
    {
      var f := FilterFor(ctx, diams[i]);
      var cond := seq(|rows|, j requires 0 <= j < |rows| => MatchKeyA(rows[j], diams[i], f));
      finalCondition := seq(|rows|, j requires 0 <= j < |rows| => finalCondition[j] || cond[j]);
      i := i + 1;
    }
    SelectIsKeep(rows, finalCondition, r => MatchA(r, diams, ctx));
    selected := Select(rows, finalCondition);
  }

  /**
   * One POST of a flow A cascade step: for every chosen DIÁMETRO the answer
   * for dimension `d` (or its default) is decoded and stored, creating the
   * key's entry when it is missing; other keys are left alone.
   */
  method RecordChoices(filtros: map<string, KeyFilter>, diams: seq<string>, d: Dim, answers: map<string, string>)
    returns (updated: map<string, KeyFilter>)
    ensures forall x :: x in updated <==> x in filtros || x in diams
    ensures forall x :: x in diams ==>
      updated[x] == FilterFor(filtros, x).With(d, Decode(d, if x in answers then answers[x] else Default(d)))
    ensures forall x :: x in filtros && x !in diams ==> updated[x] == filtros[x]
  {
    updated := filtros;
    var i := 0;
    while i < |diams|
      invariant 0 <= i <= |diams|
      invariant forall x :: x in updated <==> x in filtros || x in diams[..i]
      invariant forall x :: x in diams[..i] ==>
        updated[x] == FilterFor(filtros, x).With(d, Decode(d, if x in answers then answers[x] else Default(d)))
      invariant forall x :: x in filtros && x !in diams[..i] ==> updated[x] == filtros[x]
    {
      var x := diams[i];
      var stored := if x in answers then answers[x] else Default(d);
      if x in updated {
        updated := updated[x := updated[x].With(d, Decode(d, stored))];
      } else {
        updated := updated[x := Open.With(d, Decode(d, stored))];
      }
      assert diams[..i + 1] == diams[..i] + [x];
      i := i + 1;
    }
    assert diams[..|diams|] == diams;
  }

  lemma FlowAMembership(rows: seq<Row>, diams: seq<string>, ctx: map<string, KeyFilter>, r: Row)
    ensures r in FlowARows(rows, diams, ctx) <==>
      r in rows && exists k :: 0 <= k < |diams| && MatchKeyA(r, diams[k], FilterFor(ctx, diams[k]))
  {
    KeepMembership(rows, r => MatchA(r, diams, ctx), r);
  }

  lemma FlowAIsSubSeq(rows: seq<Row>, diams: seq<string>, ctx: map<string, KeyFilter>)
    ensures SubSeq(FlowARows(rows, diams, ctx), rows)
  {
    KeepIsSubSeq(rows, r => MatchA(r, diams, ctx));
  }

  /**
   * Leaving a dimension of one key unconstrained selects a super-sequence of
   * what any constraint on it selects, the explicit wildcard `{TODOS}` included.
   */
  lemma UnconstrainedWidensA(rows: seq<Row>, diams: seq<string>, ctx: map<string, KeyFilter>,
                             diam: string, d: Dim, c: Choice)
    ensures SubSeq(
      FlowARows(rows, diams, ctx[diam := FilterFor(ctx, diam).With(d, c)]),
      FlowARows(rows, diams, ctx[diam := FilterFor(ctx, diam).With(d, Unconstrained)]))
  {
    var narrow := ctx[diam := FilterFor(ctx, diam).With(d, c)];
    var wide := ctx[diam := FilterFor(ctx, diam).With(d, Unconstrained)];
    forall r | r in rows && MatchA(r, diams, narrow) ensures MatchA(r, diams, wide) {
      var k :| 0 <= k < |diams| && MatchKeyA(r, diams[k], FilterFor(narrow, diams[k]));
      assert MatchKeyA(r, diams[k], FilterFor(wide, diams[k]));
    }
    KeepMonotone(rows, r => MatchA(r, diams, narrow), r => MatchA(r, diams, wide));
  }

  /** An explicit `{TODOS}` constraint admits only rows tagged TODOS in that column. */
  lemma ExplicitWildcardAdmitsOnlyWildcardRows(r: Row, diam: string, f: KeyFilter, d: Dim)
    requires MatchKeyA(r, diam, f.With(d, Constrained(Wildcard)))
    ensures d.Column() in r.cells && r.cells[d.Column()] == Wildcard
  {
  }

  /** The two policies differ: a row with a concrete TIPO passes only the unconstrained one. */
  lemma UnconstrainedStrictlyWider()
    ensures var r := Row(map[Diametro := "2 7/8", Tipo := "J55"], None);
      && MatchKeyA(r, "2 7/8", Open)
      && !MatchKeyA(r, "2 7/8", Open.With(TipoDim, Constrained(Wildcard)))
  {
  }

  // ---------------------------------------------------------------- flow B

  /** Exact DIÁMETRO membership, or a DIÁMETRO that upper-cases to TODOS. */
  predicate MatchB(r: Row, selected: seq<string>)
  {
    IsIn(r, Diametro, selected) || (Diametro in r.cells && IsWildcardCI(r.cells[Diametro]))
  }

  function FlowBRows(rows: seq<Row>, selected: seq<string>): seq<Row>
  {
    Keep(rows, r => MatchB(r, selected))
  }

  lemma FlowBMembership(rows: seq<Row>, selected: seq<string>, r: Row)
    ensures r in FlowBRows(rows, selected) <==>
      r in rows && Diametro in r.cells &&
      (r.cells[Diametro] in selected || Upper(r.cells[Diametro]) == Wildcard)
  {
    KeepMembership(rows, r => MatchB(r, selected), r);
  }

  // ---------------------------------------------------------------- flow C

  /** The wildcard-aware test of one (DIÁMETRO, TIPO) combination under the chosen CSG. */
  predicate MatchC(r: Row, diam: string, tipo: string, csg: string)
  {
    IsIn(r, Diametro, [diam, Wildcard]) && IsIn(r, Tipo, [tipo, Wildcard]) && IsIn(r, DiametroCsg, [csg, Wildcard])
  }

  predicate AnyTipoC(r: Row, diam: string, tipos: seq<string>, csg: string)
  {
    exists k :: 0 <= k < |tipos| && MatchC(r, diam, tipos[k], csg)
  }

  predicate SelectedC(r: Row, tipos: map<string, seq<string>>, csg: string)
  {
    exists d :: d in tipos && AnyTipoC(r, d, tipos[d], csg)
  }

  function FlowCRows(rows: seq<Row>, tipos: map<string, seq<string>>, csg: string): seq<Row>
  {
    Keep(rows, r => SelectedC(r, tipos, csg))
  }

  /** Flow C's final step: a `temp` mask per DIÁMETRO, OR-ed into `final_condition`. */
  method SelectC(rows: seq<Row>, tipos: map<string, seq<string>>, csg: string)
    returns (selected: seq<Row>)
    ensures selected == FlowCRows(rows, tipos, csg)
  {
    var finalCondition := seq(|rows|, j => false);
    var todo := tipos.Keys;
    while todo != {}
      invariant todo <= tipos.Keys
      invariant |finalCondition| == |rows|
      invariant forall j :: 0 <= j < |rows| ==>
        (finalCondition[j] <==> exists d :: d in tipos && d !in todo && AnyTipoC(rows[j], d, tipos[d], csg))
      decreases todo
    {
      var d :| d in todo;
      var ts := tipos[d];
      var temp := seq(|rows|, j => false);
      var i := 0;
      while i < |ts|
        invariant 0 <= i <= |ts|
        invariant |temp| == |rows|
        invariant forall j :: 0 <= j < |rows| ==>
          (temp[j] <==> exists k :: 0 <= k < i && MatchC(rows[j], d, ts[k], csg))
      {
        var cond := seq(|rows|, j requires 0 <= j < |rows| => MatchC(rows[j], d, ts[i], csg));
        temp := seq(|rows|, j requires 0 <= j < |rows| => temp[j] || cond[j]);
        i := i + 1;
      }
      finalCondition := seq(|rows|, j requires 0 <= j < |rows| => finalCondition[j] || temp[j]);
      todo := todo - {d};
    }
    SelectIsKeep(rows, finalCondition, r => SelectedC(r, tipos, csg));
    selected := Select(rows, finalCondition);
  }

  /**
   * flujo_c_tipo's POST: each DIÁMETRO gets the TIPO values ticked for it, or
   * ["TODOS"] when none was ticked.
   */
  method RecordTiposC(diams: seq<string>, answers: map<string, seq<string>>)
    returns (tipos: map<string, seq<string>>)
    ensures tipos.Keys == set x | x in diams
    ensures forall x :: x in tipos ==> tipos[x] != []
    ensures forall x :: x in tipos ==>
      tipos[x] == (if x in answers && answers[x] != [] then answers[x] else [Wildcard])
  {
    tipos := map[];
    var i := 0;
    while i < |diams|
      invariant 0 <= i <= |diams|
      invariant tipos.Keys == set x | x in diams[..i]
      invariant forall x :: x in tipos ==>
        tipos[x] == (if x in answers && answers[x] != [] then answers[x] else [Wildcard])
    {
      var x := diams[i];
      var sel := if x in answers then answers[x] else [];
      if sel == [] {
        sel := [Wildcard];
      }
      tipos := tipos[x := sel];
      assert diams[..i + 1] == diams[..i] + [x];
      i := i + 1;
    }
    assert diams[..|diams|] == diams;
  }

  /** The union of the recorded TIPO lists, with TODOS added once any key exists. */
  function UnionTiposC(tipos: map<string, seq<string>>): (u: set<string>)
    ensures tipos == map[] ==> u == {}
    ensures forall x :: x in u <==> (x == Wildcard && tipos != map[]) || exists d :: d in tipos && x in tipos[d]
  {
    if tipos == map[] then {}
    else (set d, x | d in tipos && x in tipos[d] :: x) + {Wildcard}
  }

  /** `diam_filter`: the chosen DIÁMETRO values plus TODOS. */
  function DiamFilterC(diams: seq<string>): (f: seq<string>)
    ensures forall x :: x in f <==> x in diams || x == Wildcard
  {
    if diams == [Wildcard] then [Wildcard] else diams + [Wildcard]
  }

  // ---------------------------------------------------------------- flow D

  /** Flow D keys on DIÁMETRO when present, else on DIÁMETRO CSG, else fails. */
  function KeyColumnD(columns: set<string>): (col: Option<string>)
    ensures col.Some? ==> col.value in columns
    ensures col.None? <==> Diametro !in columns && DiametroCsg !in columns
    ensures Diametro in columns ==> col == Some(Diametro)
    ensures Diametro !in columns && DiametroCsg in columns ==> col == Some(DiametroCsg)
  {
    if Diametro in columns then Some(Diametro)
    else if DiametroCsg in columns then Some(DiametroCsg)
    else None
  }

  /** Plain membership: no wildcard rows are added. */
  function FlowDRows(rows: seq<Row>, col: string, selected: seq<string>): seq<Row>
  {
    Keep(rows, r => IsIn(r, col, selected))
  }

  /**
   * Flow D keeps exactly the rows whose key cell is one of the selected
   * values; a TODOS row survives only when TODOS itself was selected.
   */
  lemma FlowDMembership(rows: seq<Row>, col: string, selected: seq<string>, r: Row)
    ensures r in FlowDRows(rows, col, selected) <==> r in rows && col in r.cells && r.cells[col] in selected
    ensures Wildcard !in selected && r in FlowDRows(rows, col, selected) ==> r.cells[col] != Wildcard
  {
    KeepMembership(rows, r => IsIn(r, col, selected), r);
  }

  // ---------------------------------------------------------------- flow E

  /** The per-DIÁMETRO list filters of flow E; an empty list means "do not filter". */
  datatype EFilter = EFilter(tipos: seq<string>, acero: seq<string>, aceroCup: seq<string>, tipoCup: seq<string>)

  /** What the operator submitted for one DIÁMETRO on flujo_e_filtros. */
  datatype EAnswer = EAnswer(tipos: seq<string>, acero: Option<string>, aceroCup: Option<string>, tipoCup: Option<string>)

  /** `l` is the filter list recorded for the single-select grade answer `ans`. */
  predicate GradeFilterOf(l: seq<string>, ans: Option<string>)
  {
    && (l == [] <==> ans.None? || ans.value == "" || ans.value == Placeholder)
    && (l != [] ==> l == [ans.value, Wildcard])
  }

  /** A single-select grade answer: `[ac, "TODOS"]` when given and not the placeholder, else []. */
  function GradeList(ans: Option<string>): (l: seq<string>)
    ensures GradeFilterOf(l, ans)
  {
    if ans.Some? && ans.value != "" && ans.value != Placeholder then [ans.value, Wildcard] else []
  }

  function FilterOfAnswer(a: EAnswer): (f: EFilter)
    ensures f.tipos == [] <==> a.tipos == []
    ensures a.tipos != [] ==> f.tipos == a.tipos + [Wildcard]
    ensures GradeFilterOf(f.acero, a.acero)
    ensures GradeFilterOf(f.aceroCup, a.aceroCup)
    ensures GradeFilterOf(f.tipoCup, a.tipoCup)
  {
    EFilter(if a.tipos != [] then a.tipos + [Wildcard] else [],
            GradeList(a.acero), GradeList(a.aceroCup), GradeList(a.tipoCup))
  }

  const NoAnswer: EAnswer := EAnswer([], None, None, None)

  /** flujo_e_filtros' POST: one filter record per chosen DIÁMETRO. */
  method RecordFiltersE(diams: seq<string>, answers: map<string, EAnswer>)
    returns (all: map<string, EFilter>)
    ensures all.Keys == set x | x in diams
    ensures forall x :: x in all ==> all[x] == FilterOfAnswer(if x in answers then answers[x] else NoAnswer)
  {
    all := map[];
    var i := 0;
    while i < |diams|
      invariant 0 <= i <= |diams|
      invariant all.Keys == set x | x in diams[..i]
      invariant forall x :: x in all ==> all[x] == FilterOfAnswer(if x in answers then answers[x] else NoAnswer)
    {
      var x := diams[i];
      var a := if x in answers then answers[x] else NoAnswer;
      all := all[x := FilterOfAnswer(a)];
      assert diams[..i + 1] == diams[..i] + [x];
      i := i + 1;
    }
    assert diams[..|diams|] == diams;
  }

  /** An empty list leaves the column unfiltered. */
  predicate ListOk(r: Row, col: string, l: seq<string>)
  {
    l == [] || IsIn(r, col, l)
  }

  predicate MatchE(r: Row, columns: set<string>, diam: string, filters: map<string, EFilter>)
  {
    && IsIn(r, Diametro, [diam, Wildcard])
    && (diam in filters ==>
         var f := filters[diam];
         && ListOk(r, Tipo, f.tipos)
         && (Acero in columns ==> ListOk(r, Acero, f.acero))
         && (AceroCupla in columns ==> ListOk(r, AceroCupla, f.aceroCup))
         && (TipoCupla in columns ==> ListOk(r, TipoCupla, f.tipoCup)))
  }

  function SubsetE(t: Table, diam: string, filters: map<string, EFilter>): seq<Row>
  {
    Keep(t.rows, r => MatchE(r, t.columns, diam, filters))
  }

  /** The per-DIÁMETRO subsets concatenated in selection order (wildcard rows may repeat). */
  function FlowERows(t: Table, diams: seq<string>, filters: map<string, EFilter>): seq<Row>
  {
    if diams == [] then []
    else FlowERows(t, diams[..|diams| - 1], filters) + SubsetE(t, diams[|diams| - 1], filters)
  }

  method CollectE(t: Table, diams: seq<string>, filters: map<string, EFilter>)
    returns (filtered: seq<Row>)
    ensures filtered == FlowERows(t, diams, filters)
  {
    filtered := [];
    var i := 0;
    while i < |diams|
      invariant 0 <= i <= |diams|
      invariant filtered == FlowERows(t, diams[..i], filters)
    {
      var subset := SubsetE(t, diams[i], filters);
      assert diams[..i + 1][..i] == diams[..i];
      filtered := filtered + subset;
      i := i + 1;
    }
    assert diams[..|diams|] == diams;
  }

  lemma {:induction false} FlowEMembership(t: Table, diams: seq<string>, filters: map<string, EFilter>, r: Row)
    ensures r in FlowERows(t, diams, filters) <==>
      r in t.rows && exists k :: 0 <= k < |diams| && MatchE(r, t.columns, diams[k], filters)
  {
    if diams != [] {
      var init, last := diams[..|diams| - 1], diams[|diams| - 1];
      FlowEMembership(t, init, filters, r);
      KeepMembership(t.rows, r => MatchE(r, t.columns, last, filters), r);
      if exists k :: 0 <= k < |diams| && MatchE(r, t.columns, diams[k], filters) {
        var k :| 0 <= k < |diams| && MatchE(r, t.columns, diams[k], filters);
        if k < |diams| - 1 {
          assert init[k] == diams[k];
        }
      }
      if exists k :: 0 <= k < |init| && MatchE(r, t.columns, init[k], filters) {
        var k :| 0 <= k < |init| && MatchE(r, t.columns, init[k], filters);
        assert diams[k] == init[k];
      }
    }
  }

  /** A TODOS row that passes the filters of two chosen DIÁMETRO values is emitted twice. */
  lemma WildcardRowRepeatsInE()
    ensures var r := Row(map[Diametro := Wildcard], None);
      FlowERows(Table({Diametro}, [r]), ["2 3/8", "2 7/8"], map[]) == [r, r]
  {
    var r := Row(map[Diametro := Wildcard], None);
    var t := Table({Diametro}, [r]);
    SingleRowSubsetE(t, r, "2 3/8");
    SingleRowSubsetE(t, r, "2 7/8");
    assert ["2 3/8", "2 7/8"][..1] == ["2 3/8"];
    assert ["2 3/8"][..0] == [];
    assert FlowERows(t, ["2 3/8"], map[]) == [] + [r];
    assert FlowERows(t, ["2 3/8", "2 7/8"], map[]) == [r] + [r];
  }

  lemma SingleRowSubsetE(t: Table, r: Row, diam: string)
    requires t.rows == [r] && MatchE(r, t.columns, diam, map[])
    ensures SubsetE(t, diam, map[]) == [r]
  {
    var p := (x: Row) => MatchE(x, t.columns, diam, map[]);
    assert t.rows[1..] == [];
    assert Keep(t.rows, p) == [r] + Keep([], p);
  }

  // ---------------------------------------------------------------- flow F

  /** The filter record built by flujo_f_filtros' POST. */
  datatype FContext = FContext(diametros: seq<string>, diacsg: string)

  function RecordF(selected: seq<string>, diacsg: Option<string>): (ctx: FContext)
    ensures Wildcard in ctx.diametros
    ensures forall x :: x in ctx.diametros <==> x in selected || x == Wildcard
    ensures ctx.diacsg == if diacsg.None? || diacsg.value == "" then Wildcard else diacsg.value
  {
    FContext(if selected == [] then [Wildcard] else selected + [Wildcard],
             if diacsg.None? || diacsg.value == "" then Wildcard else diacsg.value)
  }

  /** Plain membership on DIÁMETRO; the recorded DIÁMETRO CSG plays no part. */
  function FlowFRows(rows: seq<Row>, ctx: FContext): seq<Row>
  {
    Keep(rows, r => IsIn(r, Diametro, ctx.diametros))
  }

  /** The keys a quantity is asked for: the recorded list without the wildcard. */
  function DisplayF(diametros: seq<string>): (ds: seq<string>)
    ensures forall x :: x in ds <==> x in diametros && !IsWildcardCI(x)
  {
    KeepMembershipAll(diametros);
    Keep(diametros, (x: string) => !IsWildcardCI(x))
  }

  lemma KeepMembershipAll(diametros: seq<string>)
    ensures forall x :: x in Keep(diametros, (y: string) => !IsWildcardCI(y)) <==> x in diametros && !IsWildcardCI(x)
  {
    forall x {
      KeepMembership(diametros, (y: string) => !IsWildcardCI(y), x);
    }
  }

  /**
   * Flow F keeps exactly the rows whose DIÁMETRO was selected or is exactly
   * TODOS, whatever DIÁMETRO CSG was recorded.
   */
  lemma FlowFMembership(rows: seq<Row>, selected: seq<string>, diacsg: Option<string>, r: Row)
    ensures r in FlowFRows(rows, RecordF(selected, diacsg)) <==>
      r in rows && Diametro in r.cells && (r.cells[Diametro] in selected || r.cells[Diametro] == Wildcard)
  {
    var ctx := RecordF(selected, diacsg);
    KeepMembership(rows, r => IsIn(r, Diametro, ctx.diametros), r);
  }

  /** The wildcard is matched case-sensitively here: a "todos" row is dropped. */
  lemma FlowFDropsLowercaseTodos()
    ensures IsWildcardCI("todos")
    ensures var r := Row(map[Diametro := "todos"], None);
      r !in FlowFRows([r], RecordF([], None))
  {
    WildcardSpellings();
    var r := Row(map[Diametro := "todos"], None);
    FlowFMembership([r], [], None, r);
  }

  // ---------------------------------------------------------------- flow H

  /** The rows flow H keeps: a selected material with a positive quantity. */
  predicate AssignedRowH(r: Row, materials: seq<string>)
  {
    IsIn(r, Material, materials) && r.qty.Some? && r.qty.value > 0
  }

  function AssignedH(rows: seq<Row>, materials: seq<string>): seq<Row>
  {
    Keep(rows, r => AssignedRowH(r, materials))
  }

  lemma AssignedHMembership(rows: seq<Row>, materials: seq<string>, r: Row)
    ensures r in AssignedH(rows, materials) <==>
      r in rows && Material in r.cells && r.cells[Material] in materials && r.qty.Some? && r.qty.value > 0
  {
    KeepMembership(rows, r => AssignedRowH(r, materials), r);
  }
}

=== FILE: ledger.dfy ===
/**
 * The result ledger: each finalize step filters its catalog, backfills the
 * quantities entered on the form, renames and projects the columns, and
 * appends the sheet under its flow's label. The export concatenates the
 * sheets in ledger order, tagging every row with its flow.
 */
module Ledger {
  import opened Common
  import opened Filters
  import opened Backfill
  import opened Projection
  import opened Steps

  datatype Entry = Entry(flow: Flow, sheet: Sheet)

  /** One row of the exported workbook: the report row and its `Flujo` tag. */
  datatype ExportRow = ExportRow(row: Row, flujo: string)

  // ---------------------------------------------------------------- what each flow appends

  function ResultA(t: Table, diams: seq<string>, ctx: map<string, KeyFilter>): Sheet
  {
    Project(Table(t.columns, FlowARows(t.rows, diams, ctx)))
  }

  function ResultB(t: Table, selected: seq<string>, form: map<string, int>): Sheet
  {
    Project(Table(t.columns, FillAll(FlowBRows(t.rows, selected), ExactOrders(Diametro, selected, form), MissingOnly)))
  }

  /** Flow C backfills the whole catalog first and filters afterwards. */
  function ResultC(t: Table, diams: seq<string>, tipos: map<string, seq<string>>,
                   form: map<(string, string), int>, csg: string): Sheet
  {
    Project(Table(t.columns, FlowCRows(FillAll(t.rows, OrdersC(diams, tipos, form, csg), MissingOnly), tipos, csg)))
  }

  function ResultD(t: Table, col: string, selected: seq<string>, form: map<string, int>): Sheet
  {
    Project(Table(t.columns, FillAll(FlowDRows(t.rows, col, selected), ExactOrders(col, selected, form), MissingOnly)))
  }

  function ResultE(t: Table, diams: seq<string>, filters: map<string, EFilter>, form: map<string, int>): Sheet
  {
    Project(Table(t.columns, FillAll(FlowERows(t, diams, filters), ExactOrders(Diametro, diams, form), MissingOnly)))
  }

  /** Quantities are asked only for the displayed (non-wildcard) keys. */
  function ResultF(t: Table, ctx: FContext, form: map<string, int>): Sheet
  {
    Project(Table(t.columns, FillAll(FlowFRows(t.rows, ctx), ExactOrders(Diametro, DisplayF(ctx.diametros), form), MissingOnly)))
  }

  /** The general catalog of flow H gets a quantity column of zeros when it has none. */
  function LoadH(t: Table): Table
  {
    if Cantidad in t.columns then Table(t.columns + {Cantidad}, t.rows)
    else Table(t.columns + {Cantidad}, seq(|t.rows|, i requires 0 <= i < |t.rows| => Row(t.rows[i].cells, Some(0))))
  }

  /**
   * Flow H on a catalog without a quantity column: every row starts at 0,
   * which counts as empty, so a row of a selected material ends with the
   * quantity entered for it and every other row keeps 0.
   */
  lemma LoadHBackfill(t: Table, materials: seq<string>, form: map<string, int>, i: nat)
    requires Cantidad !in t.columns && i < |t.rows|
    ensures var filled := FillAll(LoadH(t).rows, OrdersH(materials, form), MissingOrNonPositive)[i];
      && filled.cells == t.rows[i].cells
      && filled.qty == if IsIn(t.rows[i], Material, materials) then Entered(form, t.rows[i].cells[Material]) else Some(0)
  {
    MaterialBackfill(LoadH(t).rows, materials, form, i);
  }

  /** The selected materials that end up with a positive quantity. */
  function AssignedRowsH(t: Table, materials: seq<string>, form: map<string, int>): seq<Row>
  {
    AssignedH(FillAll(LoadH(t).rows, OrdersH(materials, form), MissingOrNonPositive), materials)
  }

  /**
   * Flow H appends only when some material got a positive quantity; a
   * catalog without a quantity column still gets one (all zeros).
   */
  lemma AssignedRowsHShape(t: Table, materials: seq<string>, form: map<string, int>, r: Row)
    ensures r in AssignedRowsH(t, materials, form) ==>
      Material in r.cells && r.cells[Material] in materials && r.qty.Some? && r.qty.value > 0
    ensures Cantidad in Project(Table(LoadH(t).columns, AssignedRowsH(t, materials, form))).columns
  {
    var filled := FillAll(LoadH(t).rows, OrdersH(materials, form), MissingOrNonPositive);
    AssignedHMembership(filled, materials, r);
    PresentByOrigin(LoadH(t).columns, Cantidad);
  }

  /** Copy the filtered rows into a frame, backfill it in place, and project it. */
  method BackfillAndProject(columns: set<string>, rows: seq<Row>, os: seq<Order>, p: Policy)
    returns (s: Sheet)
    ensures s == Project(Table(columns, FillAll(rows, os, p)))
  {
    var a := new Row[|rows|](i requires 0 <= i < |rows| => rows[i]);
    assert a[..] == rows;
    BackfillInPlace(a, os, p);
    s := Project(Table(columns, a[..]));
  }

  // ---------------------------------------------------------------- the run

  /** The per-process state: the list of (label, sheet) pairs gathered so far. */
  class Run {
    var ledger: seq<Entry>

    constructor()
      ensures ledger == []
    {
      ledger := [];
    }

    /** The landing page clears the ledger. */
    method Reset()
      modifies this
      ensures ledger == []
    {
      ledger := [];
    }

    method FinalizeA(t: Table, diams: seq<string>, ctx: map<string, KeyFilter>) returns (next: Page)
      modifies this
      ensures ledger == old(ledger) + [Entry(FlujoA, ResultA(t, diams, ctx))]
      ensures next == AfterFinalize(FlujoA)
    {
      var rows := SelectA(t.rows, diams, ctx);
      ledger := ledger + [Entry(FlujoA, Project(Table(t.columns, rows)))];
      next := Start(FlujoH);
    }

    method FinalizeB(t: Table, selected: seq<string>, form: map<string, int>) returns (next: Page)
      modifies this
      ensures ledger == old(ledger) + [Entry(FlujoB, ResultB(t, selected, form))]
      ensures next == AfterFinalize(FlujoB)
    {
      var sheet := BackfillAndProject(t.columns, FlowBRows(t.rows, selected), ExactOrders(Diametro, selected, form), MissingOnly);
      ledger := ledger + [Entry(FlujoB, sheet)];
      next := Start(FlujoC);
    }

    method FinalizeC(t: Table, diams: seq<string>, tipos: map<string, seq<string>>,
                     form: map<(string, string), int>, csg: string) returns (next: Page)
      modifies this
      ensures ledger == old(ledger) + [Entry(FlujoC, ResultC(t, diams, tipos, form, csg))]
      ensures next == AfterFinalize(FlujoC)
    {
      var a := new Row[|t.rows|](i requires 0 <= i < |t.rows| => t.rows[i]);
      assert a[..] == t.rows;
      BackfillInPlace(a, OrdersC(diams, tipos, form, csg), MissingOnly);
      var rows := SelectC(a[..], tipos, csg);
      ledger := ledger + [Entry(FlujoC, Project(Table(t.columns, rows)))];
      next := Start(FlujoD);
    }

    method FinalizeD(t: Table, col: string, selected: seq<string>, form: map<string, int>) returns (next: Page)
      modifies this
      ensures ledger == old(ledger) + [Entry(FlujoD, ResultD(t, col, selected, form))]
      ensures next == AfterFinalize(FlujoD)
    {
      var sheet := BackfillAndProject(t.columns, FlowDRows(t.rows, col, selected), ExactOrders(col, selected, form), MissingOnly);
      ledger := ledger + [Entry(FlujoD, sheet)];
      next := Start(FlujoE);
    }

    method FinalizeE(t: Table, diams: seq<string>, filters: map<string, EFilter>, form: map<string, int>)
      returns (next: Page)
      modifies this
      ensures ledger == old(ledger) + [Entry(FlujoE, ResultE(t, diams, filters, form))]
      ensures next == AfterFinalize(FlujoE)
    {
      var rows := CollectE(t, diams, filters);
      var sheet := BackfillAndProject(t.columns, rows, ExactOrders(Diametro, diams, form), MissingOnly);
      ledger := ledger + [Entry(FlujoE, sheet)];
      next := Start(FlujoH);
    }

    method FinalizeF(t: Table, ctx: FContext, form: map<string, int>) returns (next: Page)
      modifies this
      ensures ledger == old(ledger) + [Entry(FlujoF, ResultF(t, ctx, form))]
      ensures next == AfterFinalize(FlujoF)
    {
      var sheet := BackfillAndProject(t.columns, FlowFRows(t.rows, ctx), ExactOrders(Diametro, DisplayF(ctx.diametros), form), MissingOnly);
      ledger := ledger + [Entry(FlujoF, sheet)];
      next := Start(FlujoH);
    }

    /** Nothing is appended when no selected material got a positive quantity. */
    method FinalizeH(t: Table, materials: seq<string>, form: map<string, int>) returns (next: Page)
      modifies this
      ensures AssignedRowsH(t, materials, form) == [] ==> ledger == old(ledger)
      ensures AssignedRowsH(t, materials, form) != [] ==>
        ledger == old(ledger) + [Entry(FlujoH, Project(Table(LoadH(t).columns, AssignedRowsH(t, materials, form))))]
      ensures next == AfterFinalize(FlujoH)
    {
      var u := LoadH(t);
      var a := new Row[|u.rows|](i requires 0 <= i < |u.rows| => u.rows[i]);
      assert a[..] == u.rows;
      BackfillInPlace(a, OrdersH(materials, form), MissingOrNonPositive);
      var granted := AssignedH(a[..], materials);
      if granted != [] {
        ledger := ledger + [Entry(FlujoH, Project(Table(u.columns, granted)))];
      }
      next := Final;
    }
  }

  // ---------------------------------------------------------------- export

  /** The rows of one entry, each tagged with its flow's label. */
  function Tagged(e: Entry): seq<ExportRow>
  {
    seq(|e.sheet.rows|, i requires 0 <= i < |e.sheet.rows| => ExportRow(e.sheet.rows[i], e.flow.Label()))
  }

  /** `pd.concat([df.assign(Flujo=flow) for flow, df in ledger], ignore_index=True)`. */
  function Concat(entries: seq<Entry>): seq<ExportRow>
  {
    if entries == [] then []
    else Concat(entries[..|entries| - 1]) + Tagged(entries[|entries| - 1])
  }

  /**
   * `pd.concat` of an empty list raises, so an empty ledger exports nothing.
   * Otherwise the export holds exactly the ledger's rows, each tagged with
   * its entry's label, entry after entry in ledger order.
   */
  function Export(entries: seq<Entry>): (r: Option<seq<ExportRow>>)
    ensures r.None? <==> entries == []
    ensures r.Some? ==> |r.value| == TotalRows(entries)
    ensures r.Some? ==> forall x :: x in r.value <==> exists k :: FromEntry(entries, k, x)
    ensures r.Some? ==> forall k :: 0 <= k < |entries| ==>
      r.value == Concat(entries[..k]) + Tagged(entries[k]) + Concat(entries[k + 1..])
  {
    if entries == [] then None
    else
      ConcatLength(entries);
      assert forall x :: x in Concat(entries) <==> exists k :: FromEntry(entries, k, x) by {
        forall x {
          ConcatProvenance(entries, x);
        }
      }
      assert forall k :: 0 <= k < |entries| ==>
          Concat(entries) == Concat(entries[..k]) + Tagged(entries[k]) + Concat(entries[k + 1..]) by {
        forall k | 0 <= k < |entries| {
          ConcatOrder(entries, k);
        }
      }
      Some(Concat(entries))
  }

  function TotalRows(entries: seq<Entry>): nat
  {
    if entries == [] then 0
    else TotalRows(entries[..|entries| - 1]) + |entries[|entries| - 1].sheet.rows|
  }

  /** The export concatenates the ledger's sheets in ledger order. */
  lemma {:induction false} ConcatAppend(a: seq<Entry>, b: seq<Entry>)
    ensures Concat(a + b) == Concat(a) + Concat(b)
    decreases |b|
  {
    if b != [] {
      var init := b[..|b| - 1];
      assert (a + b)[..|a + b| - 1] == a + init;
      ConcatAppend(a, init);
    } else {
      assert a + b == a;
    }
  }

  /** Entry k's rows sit, in their own order, between those of earlier and later entries. */
  lemma {:induction false} ConcatOrder(entries: seq<Entry>, k: nat)
    requires k < |entries|
    ensures Concat(entries) == Concat(entries[..k]) + Tagged(entries[k]) + Concat(entries[k + 1..])
  {
    var front := entries[..k + 1];
    assert entries == front + entries[k + 1..];
    ConcatAppend(front, entries[k + 1..]);
    assert front[..k] == entries[..k];
  }

  /** No row is lost or added: the export has exactly the ledger's rows. */
  lemma {:induction false} ConcatLength(entries: seq<Entry>)
    ensures |Concat(entries)| == TotalRows(entries)
  {
    if entries != [] {
      ConcatLength(entries[..|entries| - 1]);
    }
  }

  lemma TaggedMembership(e: Entry, x: ExportRow)
    ensures x in Tagged(e) <==> x.flujo == e.flow.Label() && x.row in e.sheet.rows
  {
    if x.flujo == e.flow.Label() && x.row in e.sheet.rows {
      var i :| 0 <= i < |e.sheet.rows| && e.sheet.rows[i] == x.row;
      assert Tagged(e)[i] == x;
    }
  }

  predicate FromEntry(entries: seq<Entry>, k: int, x: ExportRow)
  {
    0 <= k < |entries| && x.flujo == entries[k].flow.Label() && x.row in entries[k].sheet.rows
  }

  /** Every exported row is a row of some entry, tagged with that entry's label, and conversely. */
  lemma {:induction false} ConcatProvenance(entries: seq<Entry>, x: ExportRow)
    ensures x in Concat(entries) <==> exists k :: FromEntry(entries, k, x)
  {
    if entries != [] {
      var n := |entries| - 1;
      var init := entries[..n];
      ConcatProvenance(init, x);
      TaggedMembership(entries[n], x);
      assert Concat(entries) == Concat(init) + Tagged(entries[n]);
      if x in Concat(init) {
        var k :| FromEntry(init, k, x);
        assert FromEntry(entries, k, x);
      } else if x in Tagged(entries[n]) {
        assert FromEntry(entries, n, x);
      }
      if exists k :: FromEntry(entries, k, x) {
        var k :| FromEntry(entries, k, x);
        if k < n {
          assert FromEntry(init, k, x);
        }
      }
    }
  }

  function Labels(entries: seq<Entry>): seq<string>
  {
    seq(|entries|, i requires 0 <= i < |entries| => entries[i].flow.Label())
  }

  /**
   * A session that engages B and C, skips A and D, engages E and then finalizes:
   * the ledger holds exactly three entries, in that order, and flow E's step
   * leads to flow H.
   */
  method ThreeFlowSession(tB: Table, tC: Table, tE: Table) returns (labels: seq<string>, next: Page)
    ensures labels == ["FLUJO B", "FLUJO C", "FLUJO E"]
    ensures next == Start(FlujoH)
  {
    var run := new Run();
    next := Decide(FlujoA, Some("NO")).page;
    assert next == Start(FlujoB);
    next := run.FinalizeB(tB, ["2 3/8"], map["2 3/8" := 4]);
    assert next == Start(FlujoC);
    next := run.FinalizeC(tC, ["2 3/8"], map["2 3/8" := [Wildcard]], map[], Wildcard);
    assert next == Start(FlujoD);
    next := Decide(FlujoD, Some("NO")).page;
    assert next == Start(FlujoE);
    next := run.FinalizeE(tE, ["2 3/8"], map[], map["2 3/8" := 1]);
    labels := Labels(run.ledger);
  }
}

=== FILE: ordering.dfy ===
/**
 * Python's `sorted(...unique())` on strings: lexicographic order on code
 * points, duplicates removed.
 */
module Ordering {

  /** Python's `a < b` on str: lexicographic on code points, a proper prefix first. */
  predicate Less(a: string, b: string)
  {
    if |a| == 0 then |b| > 0
    else if |b| == 0 then false
    else a[0] < b[0] || (a[0] == b[0] && Less(a[1..], b[1..]))
  }

  lemma {:induction false} LessIrreflexive(a: string)
    ensures !Less(a, a)
  {
    if |a| > 0 {
      LessIrreflexive(a[1..]);
    }
  }

  lemma {:induction false} LessTransitive(a: string, b: string, c: string)
    requires Less(a, b) && Less(b, c)
    ensures Less(a, c)
  {
    if |a| > 0 && |b| > 0 && |c| > 0 && a[0] == b[0] == c[0] {
      LessTransitive(a[1..], b[1..], c[1..]);
    }
  }

  lemma {:induction false} LessTotal(a: string, b: string)
    requires a != b
    ensures Less(a, b) || Less(b, a)
  {
    if |a| > 0 && |b| > 0 && a[0] == b[0] {
      assert a == [a[0]] + a[1..] && b == [b[0]] + b[1..];
      LessTotal(a[1..], b[1..]);
    }
  }

  /** Strictly ascending, hence free of duplicates. */
  predicate StrictlySorted(s: seq<string>)
  {
    forall i, j :: 0 <= i < j < |s| ==> Less(s[i], s[j])
  }

  lemma SortedIsDistinct(s: seq<string>)
    requires StrictlySorted(s)
    ensures forall i, j :: 0 <= i < j < |s| ==> s[i] != s[j]
  {
    forall i, j | 0 <= i < j < |s| ensures s[i] != s[j] {
      LessIrreflexive(s[i]);
    }
  }

  /** Insert `x` into a strictly sorted list unless already there. */
  function Insert(s: seq<string>, x: string): seq<string>
  {
    if s == [] then [x]
    else if x == s[0] then s
    else if Less(x, s[0]) then [x] + s
    else [s[0]] + Insert(s[1..], x)
  }

  lemma {:induction false} InsertSorted(s: seq<string>, x: string)
    requires StrictlySorted(s)
    ensures StrictlySorted(Insert(s, x))
    ensures forall y :: y in Insert(s, x) <==> y in s || y == x
  {
    if s == [] {
    } else if x == s[0] {
    } else if Less(x, s[0]) {
      var r := [x] + s;
      forall i, j | 0 <= i < j < |r| ensures Less(r[i], r[j]) {
        if i == 0 && j > 1 {
          LessTransitive(x, s[0], s[j - 1]);
        }
      }
    } else {
      LessTotal(x, s[0]);
      var t := Insert(s[1..], x);
      InsertSorted(s[1..], x);
      var r := [s[0]] + t;
      forall i, j | 0 <= i < j < |r| ensures Less(r[i], r[j]) {
        if i == 0 {
          assert r[j] in t;
          if r[j] != x {
            var k :| 0 <= k < |s[1..]| && s[1..][k] == r[j];
            assert s[k + 1] == r[j];
          }
        }
      }
      assert s == [s[0]] + s[1..];
    }
  }

  /** `sorted(set(xs))`: the distinct values of `xs` in ascending order. */
  function SortedDistinct(xs: seq<string>): (r: seq<string>)
    ensures StrictlySorted(r)
    ensures forall y :: y in r <==> y in xs
  {
    if xs == [] then []
    else
      var init := xs[..|xs| - 1];
      InsertSorted(SortedDistinct(init), xs[|xs| - 1]);
      assert xs == init + [xs[|xs| - 1]];
      Insert(SortedDistinct(init), xs[|xs| - 1])
  }

}

=== FILE: projection.dfy ===
/**
 * `renombrar_columnas`: rename the numbered catalog headers, then keep the
 * canonical report columns that are present, in canonical order.
 */
module Projection {
  import opened Common

  const CodSap: string := "Cód.SAP"
  const MaterialName: string := "MATERIAL"
  const Descripcion: string := "Descripción"
  const Condicion: string := "CONDICIÓN"

  /** The report columns, in report order. */
  const Canonical: seq<string> := [CodSap, MaterialName, Descripcion, Cantidad, Condicion]

  /** The rename table; every other header keeps its name. */
  function Rename(c: string): string
  {
    if c == "1. Cód.SAP" then CodSap
    else if c == Material then MaterialName
    else if c == "3. Descripción" then Descripcion
    else if c == "5.CONDICIÓN" then Condicion
    else c
  }

  /**
   * The header that the rename table turns into `c`: a report column comes
   * from its numbered header, and besides that header only `c` itself can
   * be renamed to `c`.
   */
  function Origin(c: string): (o: string)
    ensures c in Canonical ==> Rename(o) == c
    ensures forall h :: Rename(h) == c ==> h == o || h == c
  {
    if c == CodSap then "1. Cód.SAP"
    else if c == MaterialName then Material
    else if c == Descripcion then "3. Descripción"
    else if c == Condicion then "5.CONDICIÓN"
    else c
  }

  /** A canonical column exists after renaming. */
  predicate Present(columns: set<string>, c: string)
  {
    exists x :: x in columns && Rename(x) == c
  }

  /** Where the value of canonical column `c` comes from (the renamed header wins a clash). */
  function SourceOf(columns: set<string>, c: string): string
  {
    if Origin(c) in columns then Origin(c) else c
  }

  function ProjectedColumns(columns: set<string>): (cs: seq<string>)
    ensures SubSeq(cs, Canonical)
    ensures forall c :: c in cs <==> c in Canonical && Present(columns, c)
  {
    KeepIsSubSeq(Canonical, c => Present(columns, c));
    forall c ensures c in Keep(Canonical, c => Present(columns, c)) <==> c in Canonical && Present(columns, c) {
      KeepMembership(Canonical, c => Present(columns, c), c);
    }
    Keep(Canonical, c => Present(columns, c))
  }

  function ProjectRow(columns: set<string>, r: Row): Row
  {
    var kept := ProjectedColumns(columns);
    Row(map c | c in kept && c != Cantidad && SourceOf(columns, c) in r.cells :: r.cells[SourceOf(columns, c)],
        if Cantidad in columns then r.qty else None)
  }

  /** A report sheet: its column list and its rows. */
  datatype Sheet = Sheet(columns: seq<string>, rows: seq<Row>)

  function Project(t: Table): Sheet
  {
    Sheet(ProjectedColumns(t.columns), seq(|t.rows|, i requires 0 <= i < |t.rows| => ProjectRow(t.columns, t.rows[i])))
  }

  /**
   * A projected row holds report columns only, other than the quantity, and
   * each of them exists after renaming; its quantity is the row's own when
   * the catalog has a quantity column and missing otherwise.
   */
  lemma ProjectRowShape(columns: set<string>, r: Row, c: string)
    ensures var p := ProjectRow(columns, r);
      && (c in p.cells ==> c in Canonical && c != Cantidad && Present(columns, c))
      && (Cantidad in columns ==> p.qty == r.qty)
      && (Cantidad !in columns ==> p.qty.None?)
  {
  }

  /**
   * The value under a report column is the cell of the catalog header
   * renamed to it; when both the numbered header and the report name exist,
   * the numbered header's value wins.
   */
  lemma ProjectRowContents(columns: set<string>, r: Row, h: string)
    requires h in columns
    ensures var p := ProjectRow(columns, r); var c := Rename(h);
      c in Canonical && c != Cantidad && h in r.cells && (h != c || Origin(c) !in columns) ==>
        c in p.cells && p.cells[c] == r.cells[h]
  {
    var c := Rename(h);
    if c in Canonical && c != Cantidad {
      assert Present(columns, c);
    }
  }

  /** A source header is present after renaming exactly when it or its renamed form exists. */
  lemma PresentByOrigin(columns: set<string>, c: string)
    requires c in Canonical
    ensures Present(columns, c) <==> Origin(c) in columns || (c in columns && Rename(c) == c)
  {
    if Present(columns, c) {
      var x :| x in columns && Rename(x) == c;
      assert x == Origin(c) || x == c;
    }
    if Origin(c) in columns {
      assert Rename(Origin(c)) == c;
    }
  }
}

=== FILE: steps.dfy ===
/**
 * The step transitions of the flows: the SI/NO decision pages, the key
 * selection pages, the redirect after each finalize step, and the
 * comma-joined list that carries a selection to the next page.
 */
module Steps {
  import opened Common
  import opened Filters

  /** The flows, in the order the pages link them (the source has no flow G). */
  datatype Flow = FlujoA | FlujoB | FlujoC | FlujoD | FlujoE | FlujoF | FlujoH {
    /** The tag the ledger and the export carry. */
    function Label(): string
    {
      match this
      case FlujoA => "FLUJO A"
      case FlujoB => "FLUJO B"
      case FlujoC => "FLUJO C"
      case FlujoD => "FLUJO D"
      case FlujoE => "FLUJO E"
      case FlujoF => "FLUJO F"
      case FlujoH => "FLUJO H"
    }

    function Rank(): nat
    {
      match this
      case FlujoA => 0
      case FlujoB => 1
      case FlujoC => 2
      case FlujoD => 3
      case FlujoE => 4
      case FlujoF => 5
      case FlujoH => 6
    }
  }

  /** The pages a step can lead to. */
  datatype Page =
    | Start(flow: Flow)           // the SI/NO question of a flow
    | Selection(flow: Flow)       // its key selection page
    | AfterSelection(flow: Flow)  // the page following the key selection
    | Final                       // the consolidated results

  function PageRank(p: Page): nat
  {
    match p
    case Start(f) => 3 * f.Rank()
    case Selection(f) => 3 * f.Rank() + 1
    case AfterSelection(f) => 3 * f.Rank() + 2
    case Final => 21
  }

  /** A redirect (with the query parameter it carries) or a 400 answer. */
  datatype Response = Redirect(page: Page, param: string) | BadRequest(message: string)

  /** Where answering NO leads. */
  function SkipTarget(f: Flow): Page
  {
    match f
    case FlujoA => Start(FlujoB)
    case FlujoB => Start(FlujoC)
    case FlujoC => Start(FlujoD)
    case FlujoD => Start(FlujoE)
    case FlujoE => Start(FlujoF)
    case FlujoF => Start(FlujoH)
    case FlujoH => Final
  }

  /** The decision handlers: SI enters the flow, NO skips it, anything else is a 400. */
  function Decide(f: Flow, answer: Option<string>): Response
  {
    if answer == Some("NO") then Redirect(SkipTarget(f), "")
    else if answer == Some("SI") then Redirect(Selection(f), "")
    else BadRequest(if f == FlujoA then "Por favor seleccione una opción." else "Selecciona una opción.")
  }

  /** Where each finalize step redirects (flows A, E and F go straight to flow H). */
  function AfterFinalize(f: Flow): Page
  {
    match f
    case FlujoA => Start(FlujoH)
    case FlujoB => Start(FlujoC)
    case FlujoC => Start(FlujoD)
    case FlujoD => Start(FlujoE)
    case FlujoE => Start(FlujoH)
    case FlujoF => Start(FlujoH)
    case FlujoH => Final
  }

  /**
   * The decision pages: a 400 exactly when the answer is neither SI nor NO;
   * SI opens the flow's selection page, NO opens the question of the very
   * next flow (there is no flow G), or the results after flow H.
   */
  lemma DecideOutcomes(f: Flow, answer: Option<string>)
    ensures Decide(f, answer).BadRequest? <==> answer != Some("SI") && answer != Some("NO")
    ensures answer == Some("SI") ==> Decide(f, answer).page == Selection(f)
    ensures answer == Some("NO") ==>
      var p := Decide(f, answer).page;
      && PageRank(p) > PageRank(Start(f)) && (p.Start? || p.Final?) && (p.Final? <==> f == FlujoH)
      && (f != FlujoH ==> p.Start? && p.flow.Rank() == f.Rank() + 1)
  {
  }

  /** Every finalize step moves forward, and flow H's leads to the results. */
  lemma AfterFinalizeForward(f: Flow)
    ensures PageRank(AfterFinalize(f)) > PageRank(AfterSelection(f))
    ensures AfterFinalize(f) == Final <==> f == FlujoH
  {
  }

  /**
   * The 400 messages of the key selection pages. Flow F's selection page
   * never rejects (it always records TODOS); its quantity page does.
   */
  function RejectMessage(f: Flow): string
  {
    match f
    case FlujoA => "Seleccione al menos un DIÁMETRO."
    case FlujoD => "No se seleccionaron valores."
    case FlujoH => "No se seleccionó ningún material."
    case _ => "Selecciona al menos un DIÁMETRO."
  }

  function SubmitSelection(f: Flow, selected: seq<string>): Response
  {
    if f == FlujoF then Redirect(AfterSelection(FlujoF), Join(RecordF(selected, None).diametros))
    else if selected == [] then BadRequest(RejectMessage(f))
    else Redirect(AfterSelection(f), Join(selected))
  }

  // ---------------------------------------------------------------- list encoding

  /** `",".join(xs)`. */
  function Join(xs: seq<string>): string
  {
    if xs == [] then "" else if |xs| == 1 then xs[0] else xs[0] + "," + Join(xs[1..])
  }

  function IndexOfComma(s: string): (i: nat)
    requires ',' in s
    ensures i < |s| && s[i] == ',' && ',' !in s[..i]
  {
    if s[0] == ',' then 0
    else
      var j := IndexOfComma(s[1..]);
      assert s[..j + 1] == [s[0]] + s[1..][..j];
      j + 1
  }

  /** `s.split(",")`: always at least one piece. */
  function SplitComma(s: string): seq<string>
    decreases |s|
  {
    if ',' !in s then [s]
    else
      var i := IndexOfComma(s);
      [s[..i]] + SplitComma(s[i + 1..])
  }

  /** `s.split(",") if s else []`: how every page reads a list back. */
  function DecodeList(s: string): seq<string>
  {
    if s == "" then [] else SplitComma(s)
  }

  lemma {:induction false} SplitJoin(xs: seq<string>)
    requires xs != []
    requires forall k :: 0 <= k < |xs| ==> ',' !in xs[k]
    ensures SplitComma(Join(xs)) == xs
  {
    if |xs| > 1 {
      var x, rest := xs[0], xs[1..];
      var s := Join(xs);
      assert s == x + "," + Join(rest);
      FirstCommaAfter(x, Join(rest));
      assert s[..|x|] == x;
      assert s[|x| + 1..] == Join(rest);
      SplitJoin(rest);
    }
  }

  /** The first comma of `x + "," + t` is the one after a comma-free `x`. */
  lemma {:induction false} FirstCommaAfter(x: string, t: string)
    requires ',' !in x
    ensures IndexOfComma(x + "," + t) == |x|
  {
    var s := x + "," + t;
    if x != [] {
      assert s[0] == x[0] && s[0] != ',';
      assert s[1..] == x[1..] + "," + t;
      FirstCommaAfter(x[1..], t);
    }
  }

  lemma {:induction false} JoinEmpty(xs: seq<string>)
    ensures Join(xs) == "" ==> xs == [] || xs == [""]
  {
    if |xs| > 1 {
      var s := Join(xs);
      assert s == xs[0] + "," + Join(xs[1..]);
      assert s[|xs[0]|] == ',';
    }
  }

  /**
   * The selection carried in the query string reads back as the list that
   * was selected, provided no value contains a comma and the list is not
   * the single empty string (whose join is "" and reads back as []).
   */
  lemma {:induction false} JoinRoundTrip(xs: seq<string>)
    requires forall k :: 0 <= k < |xs| ==> ',' !in xs[k]
    requires xs != [""]
    ensures DecodeList(Join(xs)) == xs
  {
    JoinEmpty(xs);
    if xs != [] {
      SplitJoin(xs);
    }
  }

  /** A value containing a comma is split in two on the way to the next page. */
  lemma CommaValueIsSplit()
    ensures DecodeList(Join(["a,b"])) == ["a", "b"]
  {
    var s := "a,b";
    assert Join(["a,b"]) == s;
    assert s[1] == ',' && s[0] != ',';
    assert IndexOfComma(s) == 1 by {
      assert IndexOfComma(s[1..]) == 0;
    }
    assert s[..1] == "a" && s[2..] == "b";
    assert ',' !in "b";
    assert SplitComma(s) == [s[..1]] + SplitComma(s[2..]);
  }

  lemma SingleEmptyValueIsLost()
    ensures DecodeList(Join([""])) == []
  {
  }

  /**
   * A selection page rejects exactly the empty list, with its own message;
   * flow F's accepts any list.
   */
  lemma SelectionRejects(f: Flow, selected: seq<string>)
    ensures SubmitSelection(f, selected).BadRequest? <==> selected == [] && f != FlujoF
    ensures SubmitSelection(f, selected).BadRequest? ==> SubmitSelection(f, selected).message == RejectMessage(f)
  {
  }

  /** An accepted selection reaches the next page intact. */
  lemma SelectionRoundTrip(f: Flow, selected: seq<string>)
    requires f != FlujoF && selected != []
    requires forall k :: 0 <= k < |selected| ==> ',' !in selected[k]
    requires selected != [""]
    ensures SubmitSelection(f, selected).Redirect?
    ensures SubmitSelection(f, selected).page == AfterSelection(f)
    ensures DecodeList(SubmitSelection(f, selected).param) == selected
  {
    JoinRoundTrip(selected);
  }

  // ---------------------------------------------------------------- quantity pages

  /** The keys the quantity page of flow E, F or H asks a quantity for; flow F hides the wildcard. */
  function QuantityInputs(f: Flow, param: string): seq<string>
  {
    if f == FlujoF then DisplayF(DecodeList(param)) else DecodeList(param)
  }

  function EmptyListMessage(f: Flow): string
  {
    if f == FlujoH then "No se encontraron materiales seleccionados." else "No se encontraron DIÁMETRO seleccionados."
  }

  /**
   * A GET of the quantity page of flow E, F or H: a 400 when there is no key
   * to ask a quantity for, otherwise the form (None). A POST is not checked
   * and finalizes whatever the list holds.
   */
  function QuantityPage(f: Flow, param: string): Option<Response>
    requires f == FlujoE || f == FlujoF || f == FlujoH
  {
    if QuantityInputs(f, param) == [] then Some(BadRequest(EmptyListMessage(f))) else None
  }

  /**
   * After an accepted selection, the quantity pages of flows E and H always
   * show the form, while flow F's answers 400 exactly when every selected
   * DIÁMETRO is a spelling of TODOS (the empty selection included).
   */
  lemma QuantityPageAfterSelection(f: Flow, selected: seq<string>)
    requires f == FlujoE || f == FlujoF || f == FlujoH
    requires forall k :: 0 <= k < |selected| ==> ',' !in selected[k]
    requires selected != [""]
    ensures QuantityPage(f, "") == Some(BadRequest(EmptyListMessage(f)))
    ensures SubmitSelection(f, selected).Redirect? ==>
      (QuantityPage(f, SubmitSelection(f, selected).param).Some? <==>
         f == FlujoF && forall k :: 0 <= k < |selected| ==> IsWildcardCI(selected[k]))
  {
    if f == FlujoF {
      var ds := RecordF(selected, None).diametros;
      assert ds == (if selected == [] then [Wildcard] else selected + [Wildcard]);
      assert forall k :: 0 <= k < |ds| ==> ',' !in ds[k];
      assert ds != [""];
      JoinRoundTrip(ds);
      var shown := DisplayF(ds);
      WildcardSpellings();
      if shown != [] {
        assert shown[0] in shown;
        var k :| 0 <= k < |ds| && ds[k] == shown[0];
        assert k < |selected| && !IsWildcardCI(selected[k]);
      }
      if exists k :: 0 <= k < |selected| && !IsWildcardCI(selected[k]) {
        var k :| 0 <= k < |selected| && !IsWildcardCI(selected[k]);
        assert ds[k] == selected[k];
        assert selected[k] in shown;
      }
    } else if selected != [] {
      JoinRoundTrip(selected);
    }
  }
}
